=== FILE: README.md ===
# py-mcp-manager in Dafny

A model of the core of py-mcp-manager, a desktop manager for MCP servers. Each server is a
command line with arguments, environment variables and a working directory. The manager starts
and stops these servers as child processes and keeps a log per server. The model covers five
parts:

- **Configuration record** (`Config`, models.py). The `ServerConfig` record, its dictionary form
  and the read-back. A configuration read back is always offline.
- **Process supervisor** (`Supervisor`, `SupervisorFacts`, process_manager.py). A state machine
  over three maps: the tracked processes, their configurations and the per-id logs. It also
  keeps an append-only trace of the four signals it emits. The operating system is abstract:
  whether a spawn is confirmed, and what a process later reports, are inputs.
- **Editor form** (`Editor`, the panel in mcp_manager.py and server_editor_dialog.py). Reading
  the line edits and tables into a configuration, and validation.
- **Server list and window** (`ServerList`, `Window`, mcp_manager.py). The list operations, the
  button handlers and the slots the window connects to the supervisor's signals. `Text` holds
  the Python string primitives they use.
- **Toast queue** (`Toast`, toast.py). The bounded FIFO of notifications with one on display,
  and corner placement. The defaults are 3500 ms, top-right, margin 16, at most 50 pending and
  width 320.

Three behaviours of the code as written are modelled faithfully and proved:

- **Duplicate log lines.** The window's output and error slots append to the supervisor's logs
  themselves. The supervisor appends the same line too, so with the window connected every
  chunk of output and every `ERROR:` line lands in the log twice. A failed start from the
  window logs its error twice (`Window.StdoutLoggedTwice`, `Window.StderrLoggedTwice`,
  `Window.FailedStartLoggedTwice`).
- **Status disagreement after a start.** A confirmed start leaves the process running. The
  process reports running during the 3 s start wait, so "online" is signalled first; then the
  start itself signals "starting". Right after a start the list shows "starting" while a poll
  of the supervisor says "online". The next status check brings the list in line
  (`SupervisorFacts.ConfirmedStartPollDisagrees`, `Window.ConfirmedStartShowsStarting`).
- **A stop signals "offline" twice.** A stop waits up to 5 s for a running process. If the
  process exits within the wait, its not-running report and its exit report are both handled
  before the stop returns. Each signals "offline", and the process is no longer tracked
  (`SupervisorFacts.StopExitUntracks`, `Window.StopClickedOutcomes`). A process that outlives
  the wait is killed but stays tracked until it reports that it finished
  (`SupervisorFacts.OnlyExitUntracks`).

## Model

| member | source | states |
|---|---|---|
| Config.NewConfig | models.py:1-10 | a new configuration holds the given fields and is offline |
| Config.ToDict | models.py:12-22 | the dictionary has exactly the seven keys. Each holds its field in JSON form; the status holds its name |
| Config.FromDict | models.py:24-34 | it succeeds exactly when the five required keys are present with values of their types, and `working_dir`, if present, is text. It fails with a missing key exactly when a required key is absent. A result is offline, `working_dir` defaults to empty, and every field key present agrees with the result's dictionary form |
| Config.FromDictDefaultsWorkingDir | models.py:33 | a dictionary without `working_dir` reads back successfully, with an empty working directory |
| Config.FromDictMissingKey | models.py:27-32 | the missing key reported is the first absent one in the order the constructor call reads them |
| Config.DictRoundTrip | models.py:12-34 | writing a configuration out and reading it back gives it back, with the status reset to offline |
| Text.JoinSnoc | process_manager.py:115-117 | joining one more line appends exactly one separator and the line |
| Text.Strip | server_editor_dialog.py:133-140 | trimmed text never starts or ends with whitespace and is never longer |
| Text.StripEmpty | server_editor_dialog.py:162-169 | trimming leaves nothing exactly when the text is all whitespace, which is when a required field counts as blank |
| Text.StripIsSlice | server_editor_dialog.py:133-140 | the trimmed text is the slice between the leading and the trailing whitespace, and only whitespace is removed |
| Supervisor.Init | process_manager.py:16-20 | the supervisor starts with nothing tracked, no logs and no signals |
| Supervisor.ResolveShell | process_manager.py:41-47 | POSIX uses `$SHELL`, or `/bin/bash` when it is unset or empty. Windows uses `COMSPEC`, or `cmd.exe` only when it is unset, so an empty `COMSPEC` gives the empty program |
| Supervisor.ChildEnvironment | process_manager.py:67-71 | the child environment is the ambient one with the configuration's variables winning |
| Supervisor.Plan | process_manager.py:62-75 | the program is the resolved shell. A working directory is set exactly when the configuration has a non-empty one |
| Supervisor.Narrative | process_manager.py:31-59 | the start log opens with the announcement and the command line. It closes with the shell line, the shell command line and the output marker, with two optional lines in between |
| Supervisor.NarrativeOptionalLines | process_manager.py:35-38 | the working-directory line is present iff a directory is set. The environment line is present iff there are variables |
| Supervisor.Start | process_manager.py:23-113 | true iff the id is untracked and the spawn is confirmed. A tracked id gets one "Server already running" error signal and nothing else changes. A failed start changes neither map |
| Supervisor.StartConfirmed | process_manager.py:86-106 | the process (running) and its configuration are tracked. The log is the narrative, "Server is now running" from the report made during the wait, then "Process started successfully". The signals are the narrative's announcement, "online" and its announcement, the success announcement, then "starting" |
| Supervisor.StartFailed | process_manager.py:86-113 | nothing is tracked. A launch that fails during the wait first reports not running, which logs "Server stopped" and signals "offline". Then one `ERROR:` line is logged and the error is signalled, last |
| Supervisor.Stop | process_manager.py:125-136 | true iff the id is tracked. A running process that exits within the wait is untracked: "offline" is signalled twice and "Server stopped" and the exit line are logged. Otherwise nothing changes |
| Supervisor.GetStatus | process_manager.py:138-151 | untracked gives offline. Running gives online and Starting gives starting, each in both directions. A poll never reports an error |
| Supervisor.GetLogs | process_manager.py:115-117 | an unknown id reads as empty, and a one-line log reads as that line |
| Supervisor.ClearLogs | process_manager.py:119-123 | a known id's log becomes empty with one announcement. An unknown id changes nothing |
| Supervisor.HandleStdout | process_manager.py:153-159 | output is signalled, then appended and announced if the id has a log |
| Supervisor.HandleStderr | process_manager.py:161-168 | the error and an "error" status are signalled in that order, then one announcement if the id has a log, and nothing else. The line is logged with an `ERROR: ` prefix |
| Supervisor.HandleStateChange | process_manager.py:170-181 | running signals online and not running signals offline, each with its log line. Starting is not reported |
| Supervisor.HandleFinished | process_manager.py:183-191 | a tracked id leaves both maps, offline is signalled and the exit code is logged. An untracked id changes nothing |
| SupervisorFacts.ApplyKeepsKeysAgree | process_manager.py:97-98 | every operation keeps the tracked processes and kept configurations on the same ids |
| SupervisorFacts.RunKeepsKeysAgree | process_manager.py:183-187 | the same holds over any sequence of operations |
| SupervisorFacts.OnlyExitUntracks | process_manager.py:125-136 | only a finished report for the id, or a stop whose wait the running process does not outlive, stops tracking it |
| SupervisorFacts.StopSignals | process_manager.py:125-136 | a stop emits only status and log signals for its id, and "offline" is the last status among them exactly when the process exits within the wait |
| SupervisorFacts.StopExitUntracks | process_manager.py:131-134 | a stop the running process obeys within the wait untracks it, keeps the maps agreeing, polls offline and signals offline last, with two or four new signals |
| SupervisorFacts.ApplyExtendsTrace | process_manager.py:11-14 | operations only ever append signals |
| SupervisorFacts.OtherLogsUntouched | process_manager.py:119-123 | an operation on one id leaves every other id's log as it was |
| SupervisorFacts.LogChangesAnnounced | process_manager.py:60 | whenever an id's log changes, a `logs_updated` for that id is among the new signals |
| SupervisorFacts.PollAgreesAfterReport | process_manager.py:170-191 | after a running, not-running or finished report, a poll gives the status last signalled |
| SupervisorFacts.ConfirmedStartPollDisagrees | process_manager.py:97-106 | right after a confirmed start, a poll says online while the last signal says starting |
| SupervisorFacts.FailedStartStaysOffline | process_manager.py:86-113 | a failed start is false and polls offline. It emits five signals when the launch failed during the wait, three otherwise, and only the last is an error. The last status signalled is "offline" after a failure during the wait, and unchanged otherwise |
| SupervisorFacts.LogReadBackInOrder | process_manager.py:115-117 | two logged lines read back after the earlier log, in order, newline-separated |
| SupervisorFacts.ClearThenRead | process_manager.py:119-123 | after clearing, the log reads back empty, with exactly one announcement |
| Editor.TableItems | server_editor_dialog.py:143-149 | the items are trimmed, non-empty texts, at most one per row |
| Editor.TableItemsAppend | mcp_manager.py:215-221 | reading rows goes row by row, in order |
| Editor.ArgumentsRoundTrip | mcp_manager.py:183-197 | clean arguments shown in the table read back unchanged |
| Editor.EnvVarsLastWins | server_editor_dialog.py:151-160 | a variable is defined iff some row names it, with the value of the last row naming it |
| Editor.EnvRoundTrip | mcp_manager.py:187-197 | clean variables shown in the table read back as the same mapping, in any listing order |
| Editor.Validate | mcp_manager.py:234-240 | each message appears iff its field is blank, the id message comes first, and the list is empty iff both are filled |
| Editor.GetConfig | server_editor_dialog.py:130-141 | the fields are the trimmed inputs, the arguments are the table's items, the variables are the table's mapping, and the status is offline |
| Editor.Submit | server_editor_dialog.py:171-178 | accepted iff validation is empty. An accepted configuration has a clean id and command |
| Editor.EditUnchangedRoundTrip | mcp_manager.py:171-255 | loading a clean configuration and saving it unchanged gives it back, offline |
| Editor.OpenDialog | server_editor_dialog.py:16-17 | without a configuration, the dialog is new and starts from the all-empty one |
| Editor.NewDialogNeedsIdAndCommand | server_editor_dialog.py:16-17 | an illustration: a new dialog fails validation with both messages, in order |
| ServerList.FindIndex | mcp_manager.py:509-510 | the index of the first server with the id, or none iff no server has it |
| ServerList.Find | mcp_manager.py:509-510 | a server is found iff the id is listed, and it carries that id |
| ServerList.SetStatus | mcp_manager.py:718-724 | only the first server with the id changes, and only its status |
| ServerList.Add | mcp_manager.py:641-654 | a taken id is rejected with the list unchanged. Otherwise the configuration is appended |
| ServerList.AddKeepsIdsUnique | mcp_manager.py:647-654 | adding never creates a duplicate id |
| ServerList.FreeSuffix | mcp_manager.py:683-688 | the counting loop stops at the least free number. It always stops, because the ids are finite and the candidates are distinct |
| ServerList.CloneId | mcp_manager.py:682-689 | the clone id is never taken. It is `<id>_clone` if free, else `<id>_clone_<n>` with every smaller n taken |
| ServerList.Clone | mcp_manager.py:665-697 | as intended: with a listed, non-empty selection, one copy is appended under the id `CloneId` gives (`<id>_clone`, or the least free `<id>_clone_<n>`), offline, and the earlier entries are unchanged. An empty id counts as no selection |
| ServerList.CloneKeepsIdsUnique | mcp_manager.py:683-697 | cloning never creates a duplicate id |
| ServerList.CloneAsWritten | mcp_manager.py:665-680 | as written, cloning a listed, non-empty selection raises, and no other case changes the list |
| ServerList.CloneAsWrittenFails | mcp_manager.py:680 | an illustration: on one server "a", selected, the code as written fails where the intended clone appends "a_clone" |
| ServerList.Replace | mcp_manager.py:480-483 | the first server with the old id is replaced and every other entry is kept |
| ServerList.RemoveId | mcp_manager.py:555 | the survivors are exactly the servers with another id |
| ServerList.RemoveIdAppend | mcp_manager.py:555 | filtering distributes over concatenation, so survivors keep their order |
| ServerList.RemoveAbsentId | mcp_manager.py:555 | filtering out an id that is not listed changes nothing |
| ServerList.RemoveIdAfterSetStatus | mcp_manager.py:553-555 | a status change for the deleted id does not change what deleting it leaves |
| ServerList.RemoveKeepsIdsUnique | mcp_manager.py:555 | deleting keeps ids unique |
| ServerList.ControlsFor | mcp_manager.py:561-577 | delete is enabled iff there is a selection. Start and the editor panel are enabled iff the selected server is offline, stop iff it is not. Start and stop are never both enabled |
| ServerList.DotColour | mcp_manager.py:70-79 | green, yellow and red for online, starting and error; grey for anything else |
| ServerList.DotColoursDistinct | mcp_manager.py:70-79 | the four statuses are drawn in four different colours |
| Window.React | mcp_manager.py:718-772 | a status signal updates the list only. Output is logged again. An error marks the server as errored and is logged again. No slot touches the process maps |
| Window.Deliver | mcp_manager.py:299-302 | the slots keep the list's ids, the selection and the process maps |
| Window.AfterStep | mcp_manager.py:299-302 | an operation with its slots tracks what the operation alone tracks |
| Window.DeliverAppend | mcp_manager.py:299-302 | delivering two runs of signals is delivering one after the other |
| Window.DeliverQuiet | mcp_manager.py:718-724 | the slots for status and log signals about one id leave the supervisor alone, and the list shows the last status among them |
| Window.Notify | mcp_manager.py:757-772 | a process report with the window connected tracks what the supervisor alone tracks, and keeps the list's ids |
| Window.StdoutLoggedTwice | mcp_manager.py:757-763 | with the window connected each output chunk is logged twice, where the supervisor alone logs it once |
| Window.StderrLoggedTwice | mcp_manager.py:765-772 | each error line is logged twice, and the listed server ends in error |
| Window.StartClicked | mcp_manager.py:512-521 | the selected server is started iff it shows offline. Otherwise nothing changes |
| Window.AfterFailedStart | process_manager.py:86-113 | with the window connected, a failed start's error line follows the narrative (and "Server stopped" after a failure during the wait) twice, the server is marked errored and nothing is tracked |
| Window.FailedStartEmits | process_manager.py:86-113 | a failed start emits its quiet notices and then the error, with the error line last in its log |
| Window.QuietFailure | mcp_manager.py:718-724 | the slots for a failed start's notices leave the list showing offline exactly when the launch failed during the wait |
| Window.AfterConfirmedStart | process_manager.py:86-106 | with the window connected, the slots leave the supervisor as the confirmed start left it, and the list marks the server starting, after online |
| Window.FailedStartLoggedTwice | mcp_manager.py:765-772 | a failed start from the button logs its error twice after the narrative and the wait's lines, and marks the server errored |
| Window.ConfirmedStartShowsStarting | mcp_manager.py:712-724 | after a confirmed start the list says starting while a poll says online. The next status check shows online |
| Window.AfterStop | process_manager.py:125-136 | with the window connected, the slots leave the supervisor as the stop left it, and the list shows offline exactly when the process exited within the wait |
| Window.StopClicked | mcp_manager.py:523-532 | a stop happens iff the selected server is not offline. The list then shows the server offline exactly when its process exited within the wait; otherwise nothing changes |
| Window.StopClickedOutcomes | mcp_manager.py:523-532 | a stop the running process obeys within the wait untracks it, and the list and a poll both say offline. A stop it outlives changes nothing |
| Window.FirstRow | mcp_manager.py:415-421 | repopulating selects the first row, or nothing for an empty list |
| Window.DeleteClicked | mcp_manager.py:534-559 | a confirmed delete stops the selected server, removes its id and selects the first remaining row. The supervisor is as the stop leaves it, so the process is untracked only if it exited within the wait. Without a selection, a known server or a confirmation nothing changes |
| Window.MoveLog | mcp_manager.py:485-488 | the new id gets the old id's log, the old id loses it, and other logs are unchanged |
| Window.SaveEdit | mcp_manager.py:454-501 | it is refused when the selected server is not offline or the new id is taken. Otherwise the entry is replaced in place with its status kept, the log follows a rename, and the saved id is selected |
| Window.SaveKeepsIdsUnique | mcp_manager.py:466-483 | saving never creates a duplicate id |
| Window.AddClicked | mcp_manager.py:641-663 | a valid form with a fresh id is appended and selected. A taken id or invalid form changes nothing |
| Window.CloneClicked | mcp_manager.py:665-710 | as intended: with a listed selection the clone is appended and selected, under the id `CloneId` gives. Otherwise nothing changes |
| Window.CloneClickedAsWritten | mcp_manager.py:665-680 | as written: the handler fails exactly when a listed server is selected, and otherwise changes nothing |
| Window.ClearLogsClicked | mcp_manager.py:503-507 | the selected id's log is cleared. With no selection nothing changes. No widget is connected to this handler |
| Window.CheckStatuses | mcp_manager.py:712-716 | a status check keeps the ids, the selection and the supervisor |
| Window.PollEffect | mcp_manager.py:712-716 | polling the given ids sets exactly those servers' statuses to what the supervisor reports |
| Window.CheckStatusesPolls | mcp_manager.py:712-724 | with unique ids, after a check every server shows exactly what a poll reports and nothing else changed |
| Window.ActKeepsConsistent | mcp_manager.py:647-653 | every user action and process report keeps ids unique and the process maps agreeing |
| Window.RunKeepsConsistent | mcp_manager.py:264-302 | from a fresh supervisor and unique ids, any sequence of actions keeps the window consistent, with clones as intended |
| Toast.ParseLevel | toast.py:14-18 | a parsed level's name is the text parsed |
| Toast.ParseLevelExact | toast.py:14-18 | exactly the four level names parse, each to its own level |
| Toast.ResolveLevel | toast.py:144 | a level is used as given. A string converts iff it names a level, otherwise it is a ValueError |
| Toast.NewManager | toast.py:102-108 | a new manager has nothing pending, nothing on display and nothing shown |
| Toast.DequeueAndShow | toast.py:166-191 | the oldest pending message goes on display, or nothing is on display when none is pending. The stream of messages is unchanged |
| Toast.ShowToast | toast.py:143-151 | a bad level or popping an empty queue fails. A full queue loses its oldest entry before the append, and the message shows at once iff nothing is on display |
| Toast.Dismiss | toast.py:193-219 | the next pending message, if any, goes on display. Nothing is lost or reordered |
| Toast.ShowToastKeepsValid | toast.py:145-151 | showing keeps the queue within a positive bound, with nothing pending while nothing is displayed |
| Toast.DismissKeepsValid | toast.py:193-219 | dismissing keeps the same invariant |
| Toast.DrainInOrder | toast.py:166-173 | dismissing once per pending message displays them all in queue order |
| Toast.ShownIsPrefix | toast.py:166-173 | what has been displayed stays a prefix of what is displayed later |
| Toast.Position | toast.py:221-249 | in each corner the toast sits one margin in from the two parent edges of that corner. Unknown positions go bottom-left, and status-bar mode places nothing |
| Toast.PlacedInside | toast.py:236-247 | a toast that fits with margins is placed wholly inside the parent in every corner |
| Toast.CornersMirror | toast.py:236-241 | left and right placements mirror each other across the parent |

## Left out

- Spawning, waiting and killing processes, and the time limits of the 3 s start wait and the 5 s stop wait. How a spawn ends and whether a stopped process exits within the wait are inputs. The reports a process makes within a wait are applied inside the operation, as Qt delivers them.
- Supervisor.Start: output the process writes during the start wait is not modelled. Only the state report is: a running report for a confirmed start, and a not-running report for a launch that fails. A start that times out or raises reports nothing during the wait.
- Supervisor.Stop: output written during the stop wait is not modelled. The kill after a wait the process outlives leaves its finished report for later, as a separate report. A process still starting is not sent a terminate, as in the source, so it stays as it is.
- Supervisor.Narrative: the printed form of the environment mapping and the shell-quoted command line come from library calls. They are given inputs (`Host.envText`, `Host.quotedCommand`).
- Supervisor.HandleStdout: the UTF-8 decoding of the raw output bytes is left out; the chunk is given as text.
- Config.FromDict: the value types are not checked by the source. A dictionary with ill-typed values is reported as `WrongType` here, where Python would build a configuration holding them.
- Editor.EnvRows: the order in which a mapping lists its variables is a parameter.
- Saving to and loading from the configuration file, the sample data and the JSON helpers (mcp_manager.py:579-639, json_io.py). They are file I/O; only the per-record dictionary form is modelled.
- Display-only behaviour: the log view, tabs, message boxes, item widgets and style sheets. So are the tooltip's `capitalize`, the status labels, and loading a configuration into the panel for display.
- ui_styles.py (a constant style sheet) and log_viewer_dialog.py (a viewer widget).
- Adding, removing and browsing table rows in the editor: the tables are inputs.
- Window.CheckStatuses: the 5 s timer that triggers it is left out; a status check is an action.
- Toast.Dismiss: the display timer and the fade-out animation are asynchronous, and a dismissal stands for both having run. Status-bar mode is treated like overlay mode, because both clear the message on display and show the next.
- Toast.Position: the conversion to Qt's 32-bit point coordinates is not modelled. The toast's height is a parameter.
- Qt's threading and event loop: signal delivery is synchronous and modelled as such.
- Window.ClearLogsClicked: the window defines this handler but connects no widget to it (the log viewer's own clear button empties only its view), so no `Action` reaches it.
- Window.RunKeepsConsistent: the loader (mcp_manager.py:586-590) does not check that ids are unique. The invariant is proved from any list with unique ids, so a file that repeats an id is outside it.

## Findings

| source | as written | input that shows it | evidently intended | confidence | as-written member | corrected member |
|---|---|---|---|---|---|---|
| mcp_manager.py:680 | `_clone_server` copies the selected server with `server.copy()`, but the configuration class (models.py:1-34) defines no `copy` method, so every clone raises `AttributeError` before an id is generated. The exception escapes the slot, and with no exception hook installed (mcp_manager.py:781-786) PyQt's default handling ends the program | one server "a", selected, then Clone | a copy of every field of the selected server, under id `a_clone` (or the first free `a_clone_<n>`), offline, appended to the list | high; not executed | ServerList.CloneAsWritten, Window.CloneClickedAsWritten | ServerList.Clone, Window.CloneClicked |

=== FILE: config.dfy ===
/** The server configuration record (models.py) and its dictionary form,
    the shape in which configurations are written to and read from the
    JSON configuration file. */
module Config {
  import opened Wrappers

  /** Runtime status of a configured server. */
  datatype Status = Offline | Starting | Online | Error

  /** The status as the program spells it. */
  function StatusName(st: Status): string
  {
    match st
    case Offline => "offline"
    case Starting => "starting"
    case Online => "online"
    case Error => "error"
  }

  /** One launchable server: what to run, with which arguments,
      environment overlay and working directory, plus its runtime status. */
  datatype ServerConfig = ServerConfig(
    id: string,
    name: string,
    command: string,
    arguments: seq<string>,
    envVars: map<string, string>,
    workingDir: string,
    status: Status)

  /** The constructor: every freshly built configuration is offline. */
  function NewConfig(id: string, name: string, command: string, arguments: seq<string>,
                     envVars: map<string, string>, workingDir: string): (c: ServerConfig)
    ensures c.status == Offline
    ensures c.id == id && c.name == name && c.command == command
    ensures c.arguments == arguments && c.envVars == envVars && c.workingDir == workingDir
  {
    ServerConfig(id, name, command, arguments, envVars, workingDir, Offline)
  }

  /** A small JSON value, enough for the dictionary form of a configuration. */
  datatype Json =
    | JNull
    | JBool(b: bool)
    | JNumber(n: int)
    | JString(s: string)
    | JArray(items: seq<Json>)
    | JObject(fields: map<string, Json>)

  /** The seven keys the dictionary form carries. */
  const DictKeys: set<string> := {"id", "name", "command", "arguments", "env_vars", "working_dir", "status"}

  /** The keys that hold a field read back; the status is not one of them. */
  const FieldKeys: set<string> := DictKeys - {"status"}

  /** The keys reading a dictionary cannot do without, in the order the
      constructor call evaluates them. */
  const RequiredKeys: seq<string> := ["id", "name", "command", "arguments", "env_vars"]

  function StringArray(xs: seq<string>): (j: Json)
    ensures j.JArray? && |j.items| == |xs|
    ensures forall k :: 0 <= k < |xs| ==> j.items[k] == JString(xs[k])
  {
    JArray(seq(|xs|, k requires 0 <= k < |xs| => JString(xs[k])))
  }

  function StringObject(m: map<string, string>): (j: Json)
    ensures j.JObject? && j.fields.Keys == m.Keys
    ensures forall k :: k in m ==> j.fields[k] == JString(m[k])
  {
    JObject(map k | k in m :: JString(m[k]))
  }

  /** `to_dict`: one entry per field, the status included. */
  function ToDict(c: ServerConfig): (d: map<string, Json>)
    ensures d.Keys == DictKeys
    ensures d["id"] == JString(c.id) && d["name"] == JString(c.name)
    ensures d["command"] == JString(c.command) && d["working_dir"] == JString(c.workingDir)
    ensures d["arguments"] == StringArray(c.arguments) && d["env_vars"] == StringObject(c.envVars)
    ensures d["status"] == JString(StatusName(c.status))
  {
    map[
      "id" := JString(c.id),
      "name" := JString(c.name),
      "command" := JString(c.command),
      "arguments" := StringArray(c.arguments),
      "env_vars" := StringObject(c.envVars),
      "working_dir" := JString(c.workingDir),
      "status" := JString(StatusName(c.status))
    ]
  }

  /** Why a dictionary could not be read as a configuration. */
  datatype DictError = MissingKey(key: string) | WrongType(key: string)

  /** The first required key that is absent, if any. */
  function FirstMissing(d: map<string, Json>, keys: seq<string>): (r: Option<string>)
    ensures r.None? <==> forall k :: 0 <= k < |keys| ==> keys[k] in d
    ensures r.Some? ==> r.value !in d && exists k :: 0 <= k < |keys| && keys[k] == r.value
  {
    if |keys| == 0 then None
    else if keys[0] !in d then Some(keys[0])
    else FirstMissing(d, keys[1..])
  }

  /** The first missing key is the earliest absent one. */
  lemma {:induction false} FirstMissingIsEarliest(d: map<string, Json>, keys: seq<string>, i: nat)
    requires i < |keys| && keys[i] !in d
    requires forall k :: 0 <= k < i ==> keys[k] in d
    ensures FirstMissing(d, keys) == Some(keys[i])
  {
    if i > 0 {
      assert keys[0] in d;
      FirstMissingIsEarliest(d, keys[1..], i - 1);
    }
  }

  lemma RequiredPresent(d: map<string, Json>)
    requires FirstMissing(d, RequiredKeys).None?
    ensures "id" in d && "name" in d && "command" in d && "arguments" in d && "env_vars" in d
  {
    assert RequiredKeys[0] in d && RequiredKeys[1] in d && RequiredKeys[2] in d;
    assert RequiredKeys[3] in d && RequiredKeys[4] in d;
  }

  function AsString(j: Json): Option<string>
  {
    if j.JString? then Some(j.s) else None
  }

  predicate AllStrings(items: seq<Json>)
  {
    forall k :: 0 <= k < |items| ==> items[k].JString?
  }

  function AsStringSeq(j: Json): (r: Option<seq<string>>)
    ensures r.Some? ==> j.JArray? && StringArray(r.value) == j
  {
    if j.JArray? && AllStrings(j.items) then
      var xs := seq(|j.items|, k requires 0 <= k < |j.items| => j.items[k].s);
      assert StringArray(xs).items == j.items;
      Some(xs)
    else None
  }

  function AsStringMap(j: Json): (r: Option<map<string, string>>)
    ensures r.Some? ==> j.JObject? && StringObject(r.value) == j
  {
    if j.JObject? && forall k :: k in j.fields ==> j.fields[k].JString? then
      var m := map k | k in j.fields :: j.fields[k].s;
      assert StringObject(m).fields == j.fields;
      Some(m)
    else None
  }

  /** A dictionary `from_dict` can read: the five required keys hold
      strings, a list of strings and a string mapping, and the working
      directory, if present, is a string. */
  predicate Readable(d: map<string, Json>)
  {
    && "id" in d && "name" in d && "command" in d && "arguments" in d && "env_vars" in d
    && d["id"].JString? && d["name"].JString? && d["command"].JString?
    && AsStringSeq(d["arguments"]).Some? && AsStringMap(d["env_vars"]).Some?
    && ("working_dir" in d ==> d["working_dir"].JString?)
  }

  /** `from_dict`: the five required keys must be present (a missing one is
      reported before any other problem, first in evaluation order), the
      working directory defaults to the empty string, and the stored status
      is ignored: a configuration read back is always offline. */
  function FromDict(d: map<string, Json>): (r: Result<ServerConfig, DictError>)
    ensures r.Success? <==> Readable(d)
    ensures r.Success? ==> r.value.status == Offline
    ensures r.Success? ==> forall k :: 0 <= k < |RequiredKeys| ==> RequiredKeys[k] in d
    ensures r.Success? && "working_dir" !in d ==> r.value.workingDir == ""
    ensures r.Success? ==> forall key :: key in d && key in FieldKeys ==> d[key] == ToDict(r.value)[key]
    ensures (r.Failure? && r.error.MissingKey?) <==> FirstMissing(d, RequiredKeys).Some?
  {
    match FirstMissing(d, RequiredKeys)
    case Some(key) => Failure(MissingKey(key))
    case None =>
      RequiredPresent(d);
      var id := AsString(d["id"]);
      var name := AsString(d["name"]);
      var command := AsString(d["command"]);
      var arguments := AsStringSeq(d["arguments"]);
      var envVars := AsStringMap(d["env_vars"]);
      var workingDir := if "working_dir" in d then AsString(d["working_dir"]) else Some("");
      if id.None? then Failure(WrongType("id"))
      else if name.None? then Failure(WrongType("name"))
      else if command.None? then Failure(WrongType("command"))
      else if arguments.None? then Failure(WrongType("arguments"))
      else if envVars.None? then Failure(WrongType("env_vars"))
      else if workingDir.None? then Failure(WrongType("working_dir"))
      else Success(NewConfig(id.value, name.value, command.value, arguments.value, envVars.value, workingDir.value))
  }

  /** Reading fails, naming the key, whenever a required key is missing and
      every key before it is present. */
  lemma FromDictMissingKey(d: map<string, Json>, i: nat)
    requires i < |RequiredKeys| && RequiredKeys[i] !in d
    requires forall k :: 0 <= k < i ==> RequiredKeys[k] in d
    ensures FromDict(d) == Failure(MissingKey(RequiredKeys[i]))
  {
    FirstMissingIsEarliest(d, RequiredKeys, i);
  }

  /** Writing a configuration out and reading it back gives the same
      configuration, except that the status comes back offline. */
  lemma DictRoundTrip(c: ServerConfig)
    ensures FromDict(ToDict(c)) == Success(c.(status := Offline))
  {
    var d := ToDict(c);
    assert FirstMissing(d, RequiredKeys).None?;
    var xs := AsStringSeq(d["arguments"]);
    assert xs.Some?;
    assert xs.value == c.arguments;
    var m := AsStringMap(d["env_vars"]);
    assert m.Some?;
    assert m.value == c.envVars;
  }

  /** A dictionary without a working directory reads back with the empty
      one: writing a configuration out, dropping `working_dir` and reading
      it back gives the configuration with no working directory, offline. */
  lemma FromDictDefaultsWorkingDir(c: ServerConfig)
    ensures FromDict(ToDict(c) - {"working_dir"}) == Success(c.(workingDir := "", status := Offline))
  {
    var d := ToDict(c) - {"working_dir"};
    assert FirstMissing(d, RequiredKeys).None?;
    var xs := AsStringSeq(d["arguments"]);
    assert xs.Some?;
    assert xs.value == c.arguments;
    var m := AsStringMap(d["env_vars"]);
    assert m.Some?;
    assert m.value == c.envVars;
  }
}

=== FILE: editor.dfy ===
/** The server editor: the form shared by the window's configuration panel
    (mcp_manager.py, `ServerEditorPanel`) and the add dialog
    (server_editor_dialog.py, `ServerEditorDialog`). Both read the same
    widgets with the same code, so the reading is defined once here. */
module Editor {
  import opened Wrappers
  import opened Config
  import Text

  /** One table row: a cell is either missing or holds the text typed into it. */
  type Row = seq<Option<string>>

  /** The cell in a column, missing when the row is shorter. */
  function Cell(row: Row, col: nat): Option<string>
  {
    if col < |row| then row[col] else None
  }

  /** A cell that is present and not blank. */
  predicate Filled(cell: Option<string>)
  {
    cell.Some? && Text.Strip(cell.value) != ""
  }

  /** Trimmed, non-empty text: what a filled cell yields. */
  predicate Clean(s: string)
  {
    s != "" && Text.Strip(s) == s
  }

  /** `_get_table_items`: in row order, the trimmed text of every row whose
      first cell is present and not blank. */
  function TableItems(rows: seq<Row>): (items: seq<string>)
    ensures |items| <= |rows|
    ensures forall k :: 0 <= k < |items| ==> Clean(items[k])
  {
    if |rows| == 0 then []
    else
      var cell := Cell(rows[0], 0);
      var head := if Filled(cell) then (Text.StripIdempotent(cell.value); [Text.Strip(cell.value)]) else [];
      head + TableItems(rows[1..])
  }

  /** Reading rows is row by row: the items of two blocks of rows are the
      items of the first block followed by those of the second. */
  lemma {:induction false} TableItemsAppend(a: seq<Row>, b: seq<Row>)
    ensures TableItems(a + b) == TableItems(a) + TableItems(b)
    decreases |a|
  {
    if |a| == 0 {
      assert a + b == b;
    } else {
      assert (a + b)[0] == a[0];
      assert (a + b)[1..] == a[1..] + b;
      TableItemsAppend(a[1..], b);
    }
  }

  /** A blank or missing row contributes nothing; a filled one contributes
      its trimmed text. */
  lemma TableItemsOneRow(row: Row)
    ensures TableItems([row]) == if Filled(Cell(row, 0)) then [Text.Strip(Cell(row, 0).value)] else []
  {
    assert [row][1..] == [];
  }

  /** `_populate_table` for the arguments table: one row per argument. */
  function ArgumentRows(args: seq<string>): (rows: seq<Row>)
    ensures |rows| == |args|
    ensures forall k :: 0 <= k < |args| ==> rows[k] == [Some(args[k])]
  {
    seq(|args|, k requires 0 <= k < |args| => [Some(args[k])])
  }

  /** Arguments that are already trimmed and not empty survive being shown
      in the table and read back. */
  lemma {:induction false} ArgumentsRoundTrip(args: seq<string>)
    requires forall k :: 0 <= k < |args| ==> Clean(args[k])
    ensures TableItems(ArgumentRows(args)) == args
    decreases |args|
  {
    if |args| > 0 {
      var rows := ArgumentRows(args);
      assert rows[1..] == ArgumentRows(args[1..]);
      assert Cell(rows[0], 0) == Some(args[0]);
      ArgumentsRoundTrip(args[1..]);
    }
  }

  /** The variable named in an environment row, if its key cell is filled. */
  function KeyOf(row: Row): Option<string>
  {
    if Filled(Cell(row, 0)) then Some(Text.Strip(Cell(row, 0).value)) else None
  }

  /** The value in an environment row: trimmed, or empty if the cell is missing. */
  function ValueOf(row: Row): string
  {
    var cell := Cell(row, 1);
    if cell.Some? then Text.Strip(cell.value) else ""
  }

  /** The position of the last occurrence of `x` in `xs`, if any. */
  function LastIndex<T(==)>(xs: seq<T>, x: T): (r: Option<nat>)
    ensures r.Some? ==> r.value < |xs| && xs[r.value] == x
    ensures r.Some? ==> forall j :: r.value < j < |xs| ==> xs[j] != x
    ensures r.None? ==> x !in xs
  {
    if |xs| == 0 then None
    else if xs[|xs| - 1] == x then Some(|xs| - 1)
    else LastIndex(xs[..|xs| - 1], x)
  }

  /** The variable each row names. */
  function Keys(rows: seq<Row>): (keys: seq<Option<string>>)
    ensures |keys| == |rows|
    ensures forall j :: 0 <= j < |rows| ==> keys[j] == KeyOf(rows[j])
  {
    seq(|rows|, j requires 0 <= j < |rows| => KeyOf(rows[j]))
  }

  /** The last row naming variable `k`, if any: an independent statement
      of which row's value a variable ends up with. */
  function LastNaming(rows: seq<Row>, k: string): (r: Option<nat>)
    ensures r.Some? ==> r.value < |rows| && KeyOf(rows[r.value]) == Some(k)
    ensures r.Some? ==> forall j :: r.value < j < |rows| ==> KeyOf(rows[j]) != Some(k)
    ensures r.None? ==> forall j :: 0 <= j < |rows| ==> KeyOf(rows[j]) != Some(k)
  {
    var keys := Keys(rows);
    var r := LastIndex(keys, Some(k));
    assert r.None? ==> forall j :: 0 <= j < |rows| ==> keys[j] != Some(k);
    r
  }

  /** `_get_env_vars`: rows are read in order, rows without a key are
      skipped, keys and values are trimmed, and a later row for the same key
      overrides an earlier one. */
  function EnvVars(rows: seq<Row>): map<string, string>
  {
    if |rows| == 0 then map[]
    else
      var earlier := EnvVars(rows[..|rows| - 1]);
      var last := rows[|rows| - 1];
      var key := KeyOf(last);
      if key.Some? then earlier[key.value := ValueOf(last)] else earlier
  }

  /** A variable is defined exactly when some row names it, and its value is
      the one in the last row naming it. */
  lemma {:induction false} EnvVarsLastWins(rows: seq<Row>, k: string)
    ensures k in EnvVars(rows) <==> LastNaming(rows, k).Some?
    ensures k in EnvVars(rows) ==> EnvVars(rows)[k] == ValueOf(rows[LastNaming(rows, k).value])
    decreases |rows|
  {
    if |rows| > 0 {
      var n := |rows| - 1;
      var front := rows[..n];
      EnvVarsLastWins(front, k);
      if KeyOf(rows[n]) == Some(k) {
        assert Keys(rows)[n] == Some(k);
        assert LastNaming(rows, k) == Some(n);
      } else {
        assert Keys(front) == Keys(rows)[..n];
        assert Keys(rows)[n] != Some(k);
        assert LastNaming(rows, k) == LastNaming(front, k);
        var p := LastNaming(front, k);
        if p.Some? {
          assert front[p.value] == rows[p.value];
        }
      }
    }
  }

  /** `_populate_table` for the environment table, listing the variables in
      the given order (the order the mapping iterates in). */
  function EnvRows(env: map<string, string>, order: seq<string>): (rows: seq<Row>)
    requires forall k :: 0 <= k < |order| ==> order[k] in env
    ensures |rows| == |order|
    ensures forall k :: 0 <= k < |order| ==> rows[k] == [Some(order[k]), Some(env[order[k]])]
  {
    seq(|order|, k requires 0 <= k < |order| => [Some(order[k]), Some(env[order[k]])])
  }

  /** Environment variables with clean names and trimmed values survive being
      shown in the table and read back, whatever order they are listed in. */
  lemma EnvRoundTrip(env: map<string, string>, order: seq<string>)
    requires forall k :: 0 <= k < |order| ==> order[k] in env
    requires forall key :: key in env ==> exists k :: 0 <= k < |order| && order[k] == key
    requires forall key :: key in env ==> Clean(key) && Text.Strip(env[key]) == env[key]
    ensures EnvVars(EnvRows(env, order)) == env
  {
    var r := EnvVars(EnvRows(env, order));
    forall key | key in env ensures key in r && r[key] == env[key] {
      EnvKeyRead(env, order, key);
    }
    forall key | key in r ensures key in env {
      EnvKeyListed(env, order, key);
    }
  }

  /** A variable of the mapping reads back with its value. */
  lemma EnvKeyRead(env: map<string, string>, order: seq<string>, key: string)
    requires forall k :: 0 <= k < |order| ==> order[k] in env
    requires forall key :: key in env ==> Clean(key) && Text.Strip(env[key]) == env[key]
    requires key in env && exists k :: 0 <= k < |order| && order[k] == key
    ensures key in EnvVars(EnvRows(env, order))
    ensures EnvVars(EnvRows(env, order))[key] == env[key]
  {
    var rows := EnvRows(env, order);
    var k :| 0 <= k < |order| && order[k] == key;
    EnvRowRead(env, order, k);
    EnvVarsLastWins(rows, key);
    EnvRowRead(env, order, LastNaming(rows, key).value);
  }

  /** Only variables of the mapping read back. */
  lemma EnvKeyListed(env: map<string, string>, order: seq<string>, key: string)
    requires forall k :: 0 <= k < |order| ==> order[k] in env
    requires forall key :: key in env ==> Clean(key) && Text.Strip(env[key]) == env[key]
    requires key in EnvVars(EnvRows(env, order))
    ensures key in env
  {
    var rows := EnvRows(env, order);
    EnvVarsLastWins(rows, key);
    EnvRowRead(env, order, LastNaming(rows, key).value);
  }

  /** One row of the environment table reads back as the variable listed
      there and its value. */
  lemma EnvRowRead(env: map<string, string>, order: seq<string>, i: nat)
    requires forall k :: 0 <= k < |order| ==> order[k] in env
    requires forall key :: key in env ==> Clean(key) && Text.Strip(env[key]) == env[key]
    requires i < |order|
    ensures KeyOf(EnvRows(env, order)[i]) == Some(order[i])
    ensures ValueOf(EnvRows(env, order)[i]) == env[order[i]]
  {
    var row := EnvRows(env, order)[i];
    assert Cell(row, 0) == Some(order[i]);
    assert Cell(row, 1) == Some(env[order[i]]);
  }

  // ---------------------------------------------------------------------
  // The form

  /** What the editor's widgets hold: four line edits and two tables. */
  datatype Form = Form(
    idText: string,
    nameText: string,
    commandText: string,
    dirText: string,
    argRows: seq<Row>,
    envRows: seq<Row>)

  const IdRequired: string := "Server ID is required"
  const CommandRequired: string := "Command is required"

  /** `validate`: one message per blank required field, the id first. */
  function Validate(f: Form): (errors: seq<string>)
    ensures IdRequired in errors <==> Text.AllSpace(f.idText)
    ensures CommandRequired in errors <==> Text.AllSpace(f.commandText)
    ensures errors == [] <==> Text.Strip(f.idText) != "" && Text.Strip(f.commandText) != ""
    ensures |errors| == 2 ==> errors == [IdRequired, CommandRequired]
    ensures |errors| <= 2
  {
    Text.StripEmpty(f.idText);
    Text.StripEmpty(f.commandText);
    (if Text.Strip(f.idText) == "" then [IdRequired] else [])
    + (if Text.Strip(f.commandText) == "" then [CommandRequired] else [])
  }

  /** `get_config`: the trimmed fields, the arguments and environment read
      from the tables, and a fresh (offline) status. */
  function GetConfig(f: Form): (c: ServerConfig)
    ensures c.status == Offline
    ensures c.id == Text.Strip(f.idText) && c.name == Text.Strip(f.nameText)
    ensures c.command == Text.Strip(f.commandText) && c.workingDir == Text.Strip(f.dirText)
    ensures c.arguments == TableItems(f.argRows) && c.envVars == EnvVars(f.envRows)
    ensures forall k :: 0 <= k < |c.arguments| ==> Clean(c.arguments[k])
  {
    NewConfig(Text.Strip(f.idText), Text.Strip(f.nameText), Text.Strip(f.commandText),
              TableItems(f.argRows), EnvVars(f.envRows), Text.Strip(f.dirText))
  }

  /** Saving the form (the dialog's `accept` followed by `get_config`, or
      the panel's `_on_save`): refused with the validation messages, or the
      configuration read from the form, which then has a non-empty id and
      command. */
  function Submit(f: Form): (r: Result<ServerConfig, seq<string>>)
    ensures r.Success? <==> Validate(f) == []
    ensures r.Failure? ==> r.error == Validate(f) && |r.error| > 0
    ensures r.Success? ==> r.value == GetConfig(f) && Clean(r.value.id) && Clean(r.value.command)
  {
    var errors := Validate(f);
    if errors != [] then Failure(errors)
    else
      Text.StripIdempotent(f.idText);
      Text.StripIdempotent(f.commandText);
      Success(GetConfig(f))
  }

  /** The form as loaded from a configuration (`load_config`, or the
      dialog's constructor), listing the environment in the given order. */
  function LoadForm(c: ServerConfig, envOrder: seq<string>): (f: Form)
    requires forall k :: 0 <= k < |envOrder| ==> envOrder[k] in c.envVars
    ensures f.idText == c.id && f.commandText == c.command
  {
    Form(c.id, c.name, c.command, c.workingDir, ArgumentRows(c.arguments), EnvRows(c.envVars, envOrder))
  }

  /** A configuration whose text is already clean: what saving an editor
      form can produce. */
  predicate CleanConfig(c: ServerConfig)
  {
    && Clean(c.id) && Clean(c.command)
    && Text.Strip(c.name) == c.name && Text.Strip(c.workingDir) == c.workingDir
    && (forall k :: 0 <= k < |c.arguments| ==> Clean(c.arguments[k]))
    && (forall key :: key in c.envVars ==> Clean(key) && Text.Strip(c.envVars[key]) == c.envVars[key])
  }

  /** Loading a clean configuration into the editor and saving it unchanged
      gives the same configuration back, offline. */
  lemma EditUnchangedRoundTrip(c: ServerConfig, envOrder: seq<string>)
    requires CleanConfig(c)
    requires forall k :: 0 <= k < |envOrder| ==> envOrder[k] in c.envVars
    requires forall key :: key in c.envVars ==> exists k :: 0 <= k < |envOrder| && envOrder[k] == key
    ensures Submit(LoadForm(c, envOrder)) == Success(c.(status := Offline))
  {
    var f := LoadForm(c, envOrder);
    Text.StripOfTrimmed(c.id);
    Text.StripOfTrimmed(c.command);
    ArgumentsRoundTrip(c.arguments);
    EnvRoundTrip(c.envVars, envOrder);
  }

  /** The dialog as opened: editing the given configuration, or a new one
      starting from the all-empty configuration. */
  datatype Dialog = Dialog(config: ServerConfig, isNew: bool)

  function OpenDialog(config: Option<ServerConfig>): (d: Dialog)
    ensures d.isNew <==> config.None?
    ensures config.Some? ==> d.config == config.value
    ensures config.None? ==> d.config == NewConfig("", "", "", [], map[], "")
  {
    match config
    case Some(c) => Dialog(c, false)
    case None => Dialog(NewConfig("", "", "", [], map[], ""), true)
  }

  /** An illustration of `Validate` on the empty form: a new dialog's form
      fails validation on both counts until filled in. */
  lemma NewDialogNeedsIdAndCommand()
    ensures Submit(LoadForm(OpenDialog(None).config, [])) == Failure([IdRequired, CommandRequired])
  {
  }
}

=== FILE: server_list.dfy ===
/** The window's list of configured servers (mcp_manager.py,
    `MCPManagerWindow.servers`) and the pure operations on it: lookup,
    status update, add, clone, in-place replacement, delete, and the
    enabling of the action buttons. */
module ServerList {
  import opened Wrappers
  import opened Config
  import Text

  /** The ids in list order. */
  function Ids(servers: seq<ServerConfig>): (ids: seq<string>)
    ensures |ids| == |servers|
    ensures forall k :: 0 <= k < |servers| ==> ids[k] == servers[k].id
  {
    seq(|servers|, k requires 0 <= k < |servers| => servers[k].id)
  }

  /** No two servers share an id. */
  predicate UniqueIds(servers: seq<ServerConfig>)
  {
    forall i, j :: 0 <= i < j < |servers| ==> servers[i].id != servers[j].id
  }

  /** The handlers' `if not self.selected_server_id`: an empty id counts as
      no selection. */
  predicate HasTarget(selected: Option<string>)
  {
    selected.Some? && selected.value != ""
  }

  /** The index of the first server with the id (`_find_server_by_id`). */
  function FindIndex(servers: seq<ServerConfig>, id: string): (r: Option<nat>)
    ensures r.None? <==> id !in Ids(servers)
    ensures r.Some? ==> r.value < |servers| && servers[r.value].id == id
    ensures r.Some? ==> forall k :: 0 <= k < r.value ==> servers[k].id != id
  {
    if |servers| == 0 then None
    else if servers[0].id == id then Some(0)
    else
      var rest := FindIndex(servers[1..], id);
      assert Ids(servers) == [servers[0].id] + Ids(servers[1..]);
      if rest.Some? then Some(rest.value + 1) else None
  }

  /** Lookup depends on the ids only. */
  lemma {:induction false} FindIndexSameIds(a: seq<ServerConfig>, b: seq<ServerConfig>, id: string)
    requires Ids(a) == Ids(b)
    ensures FindIndex(a, id) == FindIndex(b, id)
    decreases |a|
  {
    if |a| > 0 {
      assert a[0].id == Ids(a)[0] == Ids(b)[0] == b[0].id;
      assert Ids(a[1..]) == Ids(a)[1..] == Ids(b)[1..] == Ids(b[1..]);
      FindIndexSameIds(a[1..], b[1..], id);
    }
  }

  /** The first server with the id, if any. */
  function Find(servers: seq<ServerConfig>, id: string): (r: Option<ServerConfig>)
    ensures r.Some? <==> id in Ids(servers)
    ensures r.Some? ==> r.value.id == id && r.value in servers
  {
    var i := FindIndex(servers, id);
    if i.Some? then Some(servers[i.value]) else None
  }

  /** The list part of `_update_server_status`: the first server with the
      id takes the new status; nothing else changes. */
  function SetStatus(servers: seq<ServerConfig>, id: string, st: Status): (r: seq<ServerConfig>)
    ensures |r| == |servers| && Ids(r) == Ids(servers)
    ensures FindIndex(servers, id).Some? ==> r[FindIndex(servers, id).value] == servers[FindIndex(servers, id).value].(status := st)
    ensures forall k :: 0 <= k < |servers| && Some(k) != FindIndex(servers, id) ==> r[k] == servers[k]
  {
    var i := FindIndex(servers, id);
    if i.Some? then servers[i.value := servers[i.value].(status := st)] else servers
  }

  /** A later status for the same id overrides an earlier one. */
  lemma SetStatusTwice(servers: seq<ServerConfig>, id: string, a: Status, b: Status)
    ensures SetStatus(SetStatus(servers, id, a), id, b) == SetStatus(servers, id, b)
  {
    FindIndexSameIds(servers, SetStatus(servers, id, a), id);
  }

  /** The outcome of adding a new configuration (`_add_new_server`). */
  datatype Added = Added(servers: seq<ServerConfig>, ok: bool)

  /** A configuration whose id is taken is rejected and the list is left
      alone; otherwise it is appended. */
  function Add(servers: seq<ServerConfig>, c: ServerConfig): (r: Added)
    ensures r.ok <==> c.id !in Ids(servers)
    ensures r.ok ==> r.servers == servers + [c]
    ensures !r.ok ==> r.servers == servers
  {
    if c.id in Ids(servers) then Added(servers, false) else Added(servers + [c], true)
  }

  /** Adding never creates a duplicate id. */
  lemma AddKeepsIdsUnique(servers: seq<ServerConfig>, c: ServerConfig)
    requires UniqueIds(servers)
    ensures UniqueIds(Add(servers, c).servers)
  {
    var r := Add(servers, c);
    if r.ok {
      forall i, j | 0 <= i < j < |r.servers| ensures r.servers[i].id != r.servers[j].id {
        if j == |servers| {
          assert Ids(servers)[i] == servers[i].id;
        }
      }
    }
  }

  // ---------------------------------------------------------------------
  // Clone ids

  /** The numbered form of a clone id: `<base>_<n>`. */
  function Candidate(base: string, n: nat): string
  {
    base + "_" + Text.NatToString(n)
  }

  /** Different numbers give different candidates. */
  lemma CandidateInjective(base: string, a: nat, b: nat)
    requires Candidate(base, a) == Candidate(base, b)
    ensures a == b
  {
    var p := |base| + 1;
    assert Candidate(base, a)[p..] == Text.NatToString(a);
    assert Candidate(base, b)[p..] == Text.NatToString(b);
    Text.NatToStringInjective(a, b);
  }

  /** The candidates numbered 1 to n - 1. */
  function Candidates(base: string, n: nat): set<string>
  {
    set j | 1 <= j < n :: Candidate(base, j)
  }

  lemma {:induction false} CandidatesCount(base: string, n: nat)
    requires n >= 1
    ensures |Candidates(base, n)| == n - 1
    decreases n
  {
    if n > 1 {
      CandidatesCount(base, n - 1);
      assert Candidates(base, n) == Candidates(base, n - 1) + {Candidate(base, n - 1)};
      if Candidate(base, n - 1) in Candidates(base, n - 1) {
        var j :| 1 <= j < n - 1 && Candidate(base, j) == Candidate(base, n - 1);
        CandidateInjective(base, j, n - 1);
      }
    } else {
      assert Candidates(base, n) == {};
    }
  }

  /** The least number n, counting up from `from`, whose candidate is not
      in `used`. There is one, because `used` is finite and the candidates
      are all different. */
  function FreeSuffix(base: string, used: set<string>, from: nat): (n: nat)
    requires from >= 1
    requires forall j :: 1 <= j < from ==> Candidate(base, j) in used
    ensures n >= from && Candidate(base, n) !in used
    ensures forall j :: 1 <= j < n ==> Candidate(base, j) in used
    decreases |used| + 1 - from
  {
    if Candidate(base, from) !in used then from
    else
      CandidatesCount(base, from + 1);
      assert Candidates(base, from + 1) <= used;
      assert from <= |used| by {
        SubsetCard(Candidates(base, from + 1), used);
      }
      FreeSuffix(base, used, from + 1)
  }

  lemma SubsetCard<T>(a: set<T>, b: set<T>)
    requires a <= b
    ensures |a| <= |b|
  {
    assert b == a + (b - a);
  }

  /** The id a clone of `id` gets: `<id>_clone` if that is free, otherwise
      `<id>_clone_<n>` for the least n >= 1 that is free. */
  function CloneId(servers: seq<ServerConfig>, id: string): (r: string)
    ensures r !in Ids(servers)
    ensures id + "_clone" !in Ids(servers) ==> r == id + "_clone"
    ensures id + "_clone" in Ids(servers) ==>
              exists n :: n >= 1 && r == Candidate(id + "_clone", n)
                          && forall j :: 1 <= j < n ==> Candidate(id + "_clone", j) in Ids(servers)
  {
    var base := id + "_clone";
    var used := set k | 0 <= k < |servers| :: servers[k].id;
    assert forall x :: x in used <==> x in Ids(servers) by {
      forall x | x in Ids(servers) ensures x in used {
        var k :| 0 <= k < |servers| && Ids(servers)[k] == x;
      }
    }
    if base !in used then base
    else
      var n := FreeSuffix(base, used, 1);
      Candidate(base, n)
  }

  /** `_clone_server`, as the copy was evidently meant to work: the
      selected server is copied, given the id `CloneId` picks and an
      offline status, and appended; the earlier entries stay as they were. An empty selection
      counts as none. */
  function Clone(servers: seq<ServerConfig>, selected: Option<string>): (r: Added)
    ensures r.ok <==> selected.Some? && selected.value != "" && selected.value in Ids(servers)
    ensures !r.ok ==> r.servers == servers
    ensures r.ok ==> (
              && |r.servers| == |servers| + 1
              && r.servers[..|servers|] == servers
              && r.servers[|servers|].id == CloneId(servers, selected.value)
              && r.servers[|servers|].id !in Ids(servers)
              && r.servers[|servers|].status == Offline
              && r.servers[|servers|] == Find(servers, selected.value).value.(id := r.servers[|servers|].id, status := Offline))
  {
    if !HasTarget(selected) then Added(servers, false)
    else
      match Find(servers, selected.value)
      case None => Added(servers, false)
      case Some(server) =>
        var copy := server.(id := CloneId(servers, server.id), status := Offline);
        assert (servers + [copy])[..|servers|] == servers;
        Added(servers + [copy], true)
  }

  /** Cloning never creates a duplicate id. */
  lemma CloneKeepsIdsUnique(servers: seq<ServerConfig>, selected: Option<string>)
    requires UniqueIds(servers)
    ensures UniqueIds(Clone(servers, selected).servers)
  {
    var r := Clone(servers, selected);
    if r.ok {
      forall i, j | 0 <= i < j < |r.servers| ensures r.servers[i].id != r.servers[j].id {
        if j == |servers| {
          assert r.servers[i] == servers[i];
          assert Ids(servers)[i] == servers[i].id;
        } else {
          assert r.servers[i] == servers[i] && r.servers[j] == servers[j];
        }
      }
    }
  }

  /** What the clone handler does as written: the copy is taken with
      `server.copy()`, which the configuration class does not define, so
      the call raises before any id is generated. No selection (or an empty
      one), or a selection that is not in the list, returns without change. */
  function CloneAsWritten(servers: seq<ServerConfig>, selected: Option<string>): (r: Result<seq<ServerConfig>, string>)
    ensures r.Success? ==> r.value == servers
    ensures r.Failure? <==> selected.Some? && selected.value != "" && selected.value in Ids(servers)
  {
    if !HasTarget(selected) then Success(servers)
    else if Find(servers, selected.value).None? then Success(servers)
    else Failure("AttributeError: 'ServerConfig' object has no attribute 'copy'")
  }

  /** An illustration of the discrepancy, whose all-inputs form is the
      contract of `CloneAsWritten`: one server "a", selected. As
      written, cloning fails and adds nothing; as intended, "a_clone" is
      appended. */
  lemma CloneAsWrittenFails()
    ensures var a := NewConfig("a", "A", "run", [], map[], "");
      && CloneAsWritten([a], Some("a")).Failure?
      && Clone([a], Some("a")).servers == [a, a.(id := "a_clone")]
  {
    var a := NewConfig("a", "A", "run", [], map[], "");
    assert Ids([a]) == ["a"];
    assert "a_clone" != "a" by {
      assert |"a_clone"| != |"a"|;
    }
    assert CloneId([a], "a") == "a_clone";
    assert Find([a], "a") == Some(a);
  }

  // ---------------------------------------------------------------------
  // Replace and delete

  /** The replacement loop of `_on_config_saved`: the first server with the
      old id is replaced; a list without it is unchanged. */
  function Replace(servers: seq<ServerConfig>, oldId: string, updated: ServerConfig): (r: seq<ServerConfig>)
    ensures |r| == |servers|
    ensures FindIndex(servers, oldId).Some? ==> r[FindIndex(servers, oldId).value] == updated
    ensures forall k :: 0 <= k < |servers| && Some(k) != FindIndex(servers, oldId) ==> r[k] == servers[k]
  {
    var i := FindIndex(servers, oldId);
    if i.Some? then servers[i.value := updated] else servers
  }

  /** `[s for s in servers if s.id != id]`. */
  function RemoveId(servers: seq<ServerConfig>, id: string): (r: seq<ServerConfig>)
    ensures id !in Ids(r)
    ensures forall s :: s in r <==> s in servers && s.id != id
    ensures |r| <= |servers|
  {
    if |servers| == 0 then []
    else
      var rest := RemoveId(servers[1..], id);
      if servers[0].id == id then rest
      else
        assert Ids([servers[0]] + rest) == [servers[0].id] + Ids(rest);
        [servers[0]] + rest
  }

  /** Deleting works element by element, so the survivors keep their
      relative order: deleting from a concatenation is deleting from each
      part. */
  lemma {:induction false} RemoveIdAppend(a: seq<ServerConfig>, b: seq<ServerConfig>, id: string)
    ensures RemoveId(a + b, id) == RemoveId(a, id) + RemoveId(b, id)
    decreases |a|
  {
    if |a| == 0 {
      assert a + b == b;
    } else {
      assert (a + b)[0] == a[0];
      assert (a + b)[1..] == a[1..] + b;
      RemoveIdAppend(a[1..], b, id);
    }
  }

  /** Deleting an id forgets everything its entries showed: two lists that
      differ only in entries with that id lose the same entries. */
  lemma {:induction false} RemoveIdIgnoresItsEntries(a: seq<ServerConfig>, b: seq<ServerConfig>, id: string)
    requires |a| == |b|
    requires forall k :: 0 <= k < |a| ==> a[k] == b[k] || (a[k].id == id && b[k].id == id)
    ensures RemoveId(a, id) == RemoveId(b, id)
    decreases |a|
  {
    if |a| > 0 {
      RemoveIdIgnoresItsEntries(a[1..], b[1..], id);
    }
  }

  /** A status update does not change what deleting its id leaves. */
  lemma RemoveIdAfterSetStatus(servers: seq<ServerConfig>, id: string, st: Status)
    ensures RemoveId(SetStatus(servers, id, st), id) == RemoveId(servers, id)
  {
    RemoveIdIgnoresItsEntries(SetStatus(servers, id, st), servers, id);
  }

  /** A list without the id is left exactly as it was. */
  lemma {:induction false} RemoveAbsentId(servers: seq<ServerConfig>, id: string)
    requires id !in Ids(servers)
    ensures RemoveId(servers, id) == servers
    decreases |servers|
  {
    if |servers| > 0 {
      assert Ids(servers) == [servers[0].id] + Ids(servers[1..]);
      RemoveAbsentId(servers[1..], id);
    }
  }

  /** In a list with unique ids, no later server shares the first one's id. */
  lemma HeadIdFresh(servers: seq<ServerConfig>, s: ServerConfig)
    requires UniqueIds(servers) && |servers| > 0
    requires s in servers[1..]
    ensures s.id != servers[0].id
  {
    var k :| 0 <= k < |servers[1..]| && servers[1..][k] == s;
    assert servers[k + 1] == s;
  }

  /** Putting a server with a fresh id in front keeps ids unique. */
  lemma ConsKeepsIdsUnique(c: ServerConfig, rest: seq<ServerConfig>)
    requires UniqueIds(rest)
    requires forall k :: 0 <= k < |rest| ==> rest[k].id != c.id
    ensures UniqueIds([c] + rest)
  {
    var r := [c] + rest;
    forall i, j | 0 <= i < j < |r| ensures r[i].id != r[j].id {
      assert r[j] == rest[j - 1];
      if i > 0 {
        assert r[i] == rest[i - 1];
      }
    }
  }

  /** Deleting keeps ids unique. */
  lemma {:induction false} RemoveKeepsIdsUnique(servers: seq<ServerConfig>, id: string)
    requires UniqueIds(servers)
    ensures UniqueIds(RemoveId(servers, id))
    decreases |servers|
  {
    if |servers| > 0 {
      RemoveKeepsIdsUnique(servers[1..], id);
      var rest := RemoveId(servers[1..], id);
      if servers[0].id != id {
        forall k | 0 <= k < |rest| ensures rest[k].id != servers[0].id {
          assert rest[k] in rest;
          HeadIdFresh(servers, rest[k]);
        }
        ConsKeepsIdsUnique(servers[0], rest);
      }
    }
  }

  // ---------------------------------------------------------------------
  // Button enabling

  datatype Controls = Controls(start: bool, stop: bool, delete: bool, editor: bool)

  /** `_update_controls_enabled`: delete needs a selection; start needs the
      selected server to exist and be offline, stop needs it to exist and
      not be offline; the editor panel is enabled like start. */
  function ControlsFor(servers: seq<ServerConfig>, selected: Option<string>): (c: Controls)
    ensures c.delete <==> selected.Some?
    ensures c.start <==> selected.Some? && Find(servers, selected.value).Some? && Find(servers, selected.value).value.status == Offline
    ensures c.stop <==> selected.Some? && Find(servers, selected.value).Some? && Find(servers, selected.value).value.status != Offline
    ensures c.editor == c.start
    ensures !(c.start && c.stop)
  {
    if selected.None? then Controls(false, false, false, false)
    else
      match Find(servers, selected.value)
      case None => Controls(false, false, true, false)
      case Some(server) =>
        var offline := server.status == Offline;
        Controls(offline, !offline, true, offline)
  }

  /** `_apply_dot_style`: the colour of a server's status dot; any status
      name it does not know is drawn grey, like offline. */
  function DotColour(status: string): (colour: string)
    ensures status == "online" ==> colour == "#28A745"
    ensures status == "starting" ==> colour == "#FFC107"
    ensures status == "error" ==> colour == "#DC3545"
    ensures status !in {"online", "starting", "error"} ==> colour == "#ADB5BD"
  {
    if status == "online" then "#28A745"
    else if status == "starting" then "#FFC107"
    else if status == "error" then "#DC3545"
    else "#ADB5BD"
  }

  /** The four statuses are drawn in four different colours. */
  lemma DotColoursDistinct(a: Status, b: Status)
    requires a != b
    ensures DotColour(StatusName(a)) != DotColour(StatusName(b))
  {
  }
}

=== FILE: supervisor.dfy ===
/** The process supervisor (process_manager.py): which server ids have a
    live process, the configuration each was started from, one log per id,
    and the signals it emits, recorded here as an append-only trace.

    The operating-system process is abstract: a launch plan and a state.
    Whether a spawn is confirmed, and what a process later reports (output,
    error output, state changes, exit), are inputs to the step functions. */
module Supervisor {
  import opened Wrappers
  import opened Config
  import Text

  /** The state of an operating-system process as the process library reports it. */
  datatype ProcState = NotRunning | Starting | Running

  datatype Platform = Posix | Windows

  /** What the host provides at launch time: the platform, the value of the
      shell variable (`SHELL` on POSIX, `COMSPEC` on Windows) if set, the
      ambient environment, the shell-quoted command line, and the printed
      form of the configuration's environment variables. Quoting and
      printing are library calls and are taken as given. */
  datatype Host = Host(
    platform: Platform,
    shellVar: Option<string>,
    ambient: map<string, string>,
    quotedCommand: string,
    envText: string)

  /** How a child process is set up: the shell program, its arguments, the
      environment and, if any, the working directory. */
  datatype LaunchPlan = LaunchPlan(
    program: string,
    arguments: seq<string>,
    environment: map<string, string>,
    workingDir: Option<string>)

  /** A tracked process: how it was launched and its current state. */
  datatype Proc = Proc(plan: LaunchPlan, state: ProcState)

  /** The four signals. */
  datatype Event =
    | StatusChanged(id: string, status: Status)
    | OutputReceived(id: string, text: string)
    | ErrorOccurred(id: string, text: string)
    | LogsUpdated(id: string)

  datatype Supervisor = Supervisor(
    processes: map<string, Proc>,
    configs: map<string, ServerConfig>,
    logs: map<string, seq<string>>,
    trace: seq<Event>)

  /** What happens when the process is started. The start is confirmed
      within the 3 s wait, and the process reports running during it; the
      process fails to start, and reports not running during the wait; the
      wait ends with the process still starting, and it reports nothing; or
      an exception is raised. The last three carry the error text. */
  datatype SpawnOutcome = Confirmed | FailedToStart(reason: string) | TimedOut(reason: string) | Raised(reason: string)

  /** What happens during the 5 s stop wait: the process exits within it,
      with an exit code, or it outlives the wait and is killed, and its
      reports arrive later. */
  datatype StopOutcome = ExitedInWait(exitCode: int) | OutlivedWait

  /** A new state together with the boolean an operation returns. */
  datatype Step = Step(sup: Supervisor, ok: bool)

  const AlreadyRunning: string := "Server already running"
  const OutputMarker: string := "--- Server Output ---"
  const StartedLine: string := "Process started successfully"
  const RunningLine: string := "Server is now running"
  const StoppedLine: string := "Server stopped"

  function ExitLine(exitCode: int): string
  {
    "Process exited with code " + Text.IntToString(exitCode)
  }

  /** The supervisor as constructed: nothing tracked, no logs, no signals. */
  function Init(): (s: Supervisor)
    ensures KeysAgree(s) && s.logs == map[] && s.trace == []
  {
    Supervisor(map[], map[], map[], [])
  }

  /** The invariant: an id has a live process exactly when its configuration is kept. */
  predicate KeysAgree(s: Supervisor)
  {
    s.processes.Keys == s.configs.Keys
  }

  /** Signals emitted between two states. */
  function NewEvents(before: Supervisor, after: Supervisor): seq<Event>
    requires |before.trace| <= |after.trace|
  {
    after.trace[|before.trace|..]
  }

  predicate HasPrefix(s: string, p: string)
  {
    |p| <= |s| && s[..|p|] == p
  }

  lemma NotPrefixAt0(s: string, p: string)
    requires |s| > 0 && |p| > 0 && s[0] != p[0]
    ensures !HasPrefix(s, p)
  {
  }

  // ---------------------------------------------------------------------
  // Launch plan

  /** The shell: `$SHELL`, or `/bin/bash` when it is unset or empty, on
      POSIX; `%COMSPEC%`, or `cmd.exe` only when it is unset, on Windows. */
  function ResolveShell(platform: Platform, shellVar: Option<string>): (shell: string)
    ensures platform == Posix ==> shell != ""
    ensures shellVar.Some? && shellVar.value != "" ==> shell == shellVar.value
    ensures shellVar.None? ==> shell == (if platform == Posix then "/bin/bash" else "cmd.exe")
    ensures shellVar == Some("") ==> shell == (if platform == Posix then "/bin/bash" else "")
  {
    match platform
    case Posix => if shellVar.Some? && shellVar.value != "" then shellVar.value else "/bin/bash"
    case Windows => if shellVar.Some? then shellVar.value else "cmd.exe"
  }

  /** The shell's arguments: run one command line through a login shell
      (`-lc`) on POSIX, or through `/C` on Windows. */
  function ShellArgs(platform: Platform, quotedCommand: string): (args: seq<string>)
    ensures |args| == 2 && args[1] == quotedCommand
  {
    match platform
    case Posix => ["-lc", quotedCommand]
    case Windows => ["/C", quotedCommand]
  }

  /** The child's environment: the ambient one with the configuration's
      variables inserted on top. */
  function ChildEnvironment(ambient: map<string, string>, envVars: map<string, string>): (env: map<string, string>)
    ensures env.Keys == ambient.Keys + envVars.Keys
    ensures forall k :: k in envVars ==> env[k] == envVars[k]
    ensures forall k :: k in ambient && k !in envVars ==> env[k] == ambient[k]
  {
    ambient + envVars
  }

  function Plan(c: ServerConfig, host: Host): (p: LaunchPlan)
    ensures p.program == ResolveShell(host.platform, host.shellVar)
    ensures p.workingDir.Some? <==> c.workingDir != ""
    ensures p.workingDir.Some? ==> p.workingDir.value == c.workingDir
  {
    LaunchPlan(
      ResolveShell(host.platform, host.shellVar),
      ShellArgs(host.platform, host.quotedCommand),
      ChildEnvironment(host.ambient, c.envVars),
      if c.workingDir != "" then Some(c.workingDir) else None)
  }

  /** The log a start begins with: the announcement, the command line, the
      working directory and the environment only when there are any, then
      the shell, the shell command line and the output marker. */
  function Narrative(c: ServerConfig, host: Host): (lines: seq<string>)
    ensures |lines| == 5 + (if c.workingDir != "" then 1 else 0) + (if |c.envVars| > 0 then 1 else 0)
    ensures lines[0] == "Starting server '" + c.id + "'..."
    ensures lines[1] == "Command: " + c.command + " " + Text.Join(c.arguments, " ")
    ensures lines[|lines| - 3] == "Shell: " + ResolveShell(host.platform, host.shellVar)
    ensures HasPrefix(lines[|lines| - 2], "Shell command: ")
    ensures lines[|lines| - 1] == OutputMarker
  {
    var shell := ResolveShell(host.platform, host.shellVar);
    var dirLine := if c.workingDir != "" then ["Working directory: " + c.workingDir] else [];
    var envLine := if |c.envVars| > 0 then ["Environment variables: " + host.envText] else [];
    var shellCommand := "Shell command: " + shell + " " + Text.Join(ShellArgs(host.platform, host.quotedCommand), " ");
    var lines := ["Starting server '" + c.id + "'...", "Command: " + c.command + " " + Text.Join(c.arguments, " ")]
      + dirLine + envLine
      + ["Shell: " + shell, shellCommand, OutputMarker];
    assert HasPrefix(shellCommand, "Shell command: ");
    lines
  }

  /** The optional lines of the narrative sit between the command line and
      the shell line: a working-directory line exactly when a working
      directory is set, an environment line exactly when there are
      environment variables. */
  lemma NarrativeOptionalLines(c: ServerConfig, host: Host)
    ensures var lines := Narrative(c, host);
      && ((exists k :: 2 <= k < |lines| - 3 && lines[k] == "Working directory: " + c.workingDir) <==> c.workingDir != "")
      && ((exists k :: 2 <= k < |lines| - 3 && HasPrefix(lines[k], "Environment variables: ")) <==> |c.envVars| > 0)
  {
    var lines := Narrative(c, host);
    var dirLine := if c.workingDir != "" then ["Working directory: " + c.workingDir] else [];
    var envLine := if |c.envVars| > 0 then ["Environment variables: " + host.envText] else [];
    assert lines[2..|lines| - 3] == dirLine + envLine;
    assert c.workingDir != "" ==> lines[2] == "Working directory: " + c.workingDir;
    assert |c.envVars| > 0 ==> HasPrefix(lines[|lines| - 4], "Environment variables: ");
    assert forall k :: 2 <= k < |lines| - 3 ==> lines[k] in dirLine + envLine;
    NotPrefixAt0("Working directory: " + c.workingDir, "Environment variables: ");
  }

  // ---------------------------------------------------------------------
  // Primitive effects

  /** Emitting a signal appends it to the trace. */
  function Emit(s: Supervisor, e: Event): (r: Supervisor)
    ensures r.processes == s.processes && r.configs == s.configs && r.logs == s.logs
    ensures r.trace == s.trace + [e]
  {
    s.(trace := s.trace + [e])
  }

  /** The recurring "if the id has a log, append a line and announce it". */
  function Log(s: Supervisor, id: string, line: string): (r: Supervisor)
    ensures r.processes == s.processes && r.configs == s.configs
    ensures id in s.logs ==> r.logs == s.logs[id := s.logs[id] + [line]] && r.trace == s.trace + [LogsUpdated(id)]
    ensures id !in s.logs ==> r == s
  {
    if id in s.logs then
      s.(logs := s.logs[id := s.logs[id] + [line]], trace := s.trace + [LogsUpdated(id)])
    else s
  }

  // ---------------------------------------------------------------------
  // Operations

  /** The id's log is replaced by the startup narrative, announced once. */
  function Narrate(s: Supervisor, c: ServerConfig, host: Host): (r: Supervisor)
    ensures r.processes == s.processes && r.configs == s.configs
    ensures r.logs == s.logs[c.id := Narrative(c, host)]
    ensures r.trace == s.trace + [LogsUpdated(c.id)]
  {
    Emit(s.(logs := s.logs[c.id := Narrative(c, host)]), LogsUpdated(c.id))
  }

  /** The error text for a start that did not go through. */
  function FailureMessage(outcome: SpawnOutcome): string
    requires !outcome.Confirmed?
  {
    match outcome
    case FailedToStart(reason) => "Failed to start process: " + reason
    case TimedOut(reason) => "Failed to start process: " + reason
    case Raised(reason) => "Exception starting process: " + reason
  }

  /** A failed start: the error is logged, announced and signalled once. */
  function FailStart(s: Supervisor, id: string, msg: string): (r: Supervisor)
    requires id in s.logs
    ensures r.processes == s.processes && r.configs == s.configs
    ensures r.logs == s.logs[id := s.logs[id] + ["ERROR: " + msg]]
    ensures r.trace == s.trace + [LogsUpdated(id), ErrorOccurred(id, msg)]
  {
    Emit(Log(s, id, "ERROR: " + msg), ErrorOccurred(id, msg))
  }

  /** A confirmed start: the process (running) and its configuration are
      tracked, the success is logged and "starting" is signalled. */
  function Track(s: Supervisor, c: ServerConfig, host: Host): (r: Supervisor)
    requires c.id in s.logs
    ensures r.processes == s.processes[c.id := Proc(Plan(c, host), Running)]
    ensures r.configs == s.configs[c.id := c]
    ensures r.logs == s.logs[c.id := s.logs[c.id] + [StartedLine]]
    ensures r.trace == s.trace + [LogsUpdated(c.id), StatusChanged(c.id, Status.Starting)]
  {
    var tracked := s.(processes := s.processes[c.id := Proc(Plan(c, host), Running)],
                      configs := s.configs[c.id := c]);
    Emit(Log(tracked, c.id, StartedLine), StatusChanged(c.id, Status.Starting))
  }

  /** A confirmed start for an id without a process: the narrative, then
      the running report the process makes during the wait (the id is not
      tracked yet, so only the report's handler has an effect), then the
      process tracked. */
  function StartConfirmed(s: Supervisor, c: ServerConfig, host: Host): (r: Supervisor)
    requires c.id !in s.processes
    ensures r.processes == s.processes[c.id := Proc(Plan(c, host), Running)]
    ensures r.configs == s.configs[c.id := c]
    ensures r.logs == s.logs[c.id := Narrative(c, host) + [RunningLine, StartedLine]]
    ensures r.trace == s.trace + [LogsUpdated(c.id), StatusChanged(c.id, Online), LogsUpdated(c.id),
                                  LogsUpdated(c.id), StatusChanged(c.id, Status.Starting)]
  {
    var w := OnNotification(Narrate(s, c, host), StateChanged(c.id, Running));
    ConfirmationWait(s, c, host);
    TrackedLog(s, w, c, host, Narrative(c, host));
    Track(w, c, host)
  }

  /** Tracking after the running report: the success line follows the
      report in the log. */
  lemma TrackedLog(s: Supervisor, w: Supervisor, c: ServerConfig, host: Host, lines: seq<string>)
    requires w.logs == s.logs[c.id := lines + [RunningLine]]
    ensures Track(w, c, host).logs == s.logs[c.id := lines + [RunningLine, StartedLine]]
  {
    AppendAfterUpdate(s.logs, c.id, lines + [RunningLine], StartedLine);
    assert lines + [RunningLine] + [StartedLine] == lines + [RunningLine, StartedLine];
  }

  /** Appending a line to a log just replaced is replacing it with the
      longer log. */
  lemma AppendAfterUpdate(m: map<string, seq<string>>, k: string, v: seq<string>, line: string)
    ensures m[k := v][k := m[k := v][k] + [line]] == m[k := v + [line]]
  {
  }

  /** The running report a confirmed process makes during the wait, while
      its id is not tracked yet. */
  lemma ConfirmationWait(s: Supervisor, c: ServerConfig, host: Host)
    requires c.id !in s.processes
    ensures var w := OnNotification(Narrate(s, c, host), StateChanged(c.id, Running));
      && w.processes == s.processes && w.configs == s.configs
      && w.logs == s.logs[c.id := Narrative(c, host) + [RunningLine]]
      && w.trace == s.trace + [LogsUpdated(c.id), StatusChanged(c.id, Online), LogsUpdated(c.id)]
  {
    var n := Narrate(s, c, host);
    assert SetState(n, c.id, Running) == n;
    UpdateTwice(s.logs, c.id, Narrative(c, host), Narrative(c, host) + [RunningLine]);
  }

  /** A second update of the same key overrides the first. */
  lemma UpdateTwice<K, V>(m: map<K, V>, k: K, v: V, w: V)
    ensures m[k := v][k := w] == m[k := w]
  {
  }

  /** Concatenation is associative. */
  lemma AppendAssoc<T>(a: seq<T>, b: seq<T>, c: seq<T>)
    ensures (a + b) + c == a + (b + c)
  {
  }

  /** A start for an id without a process that does not go through: the
      narrative, then, if the process failed to start, the not-running
      report it makes during the wait, then the error. */
  function StartFailed(s: Supervisor, c: ServerConfig, host: Host, outcome: SpawnOutcome): (r: Supervisor)
    requires c.id !in s.processes && !outcome.Confirmed?
    ensures r.processes == s.processes && r.configs == s.configs
    ensures r.logs == s.logs[c.id := Narrative(c, host) + (if outcome.FailedToStart? then [StoppedLine] else [])
                                      + ["ERROR: " + FailureMessage(outcome)]]
    ensures r.trace == s.trace + [LogsUpdated(c.id)]
                       + (if outcome.FailedToStart? then [StatusChanged(c.id, Offline), LogsUpdated(c.id)] else [])
                       + [LogsUpdated(c.id), ErrorOccurred(c.id, FailureMessage(outcome))]
  {
    var n := Narrate(s, c, host);
    var w := if outcome.FailedToStart? then OnNotification(n, StateChanged(c.id, NotRunning)) else n;
    var lines := Narrative(c, host);
    var waitLines := if outcome.FailedToStart? then [StoppedLine] else [];
    assert w.logs == n.logs[c.id := lines + waitLines] by {
      if !outcome.FailedToStart? {
        assert lines + waitLines == lines;
      }
    }
    UpdateTwice(s.logs, c.id, lines, lines + waitLines);
    assert w.trace == s.trace + [LogsUpdated(c.id)]
                      + (if outcome.FailedToStart? then [StatusChanged(c.id, Offline), LogsUpdated(c.id)] else []);
    var r := FailStart(w, c.id, FailureMessage(outcome));
    UpdateTwice(s.logs, c.id, lines + waitLines, lines + waitLines + ["ERROR: " + FailureMessage(outcome)]);
    r
  }

  /** `start_server`. A start for an id that already has a process is
      refused with one error signal and nothing else. Otherwise the id's log
      is replaced by the startup narrative, the process's report during the
      wait is handled, and the spawn outcome decides: a confirmed spawn
      tracks the process (running) and its configuration, logs the success
      and signals "starting"; any other outcome logs an `ERROR: ` line,
      signals the error once and tracks nothing. */
  function Start(s: Supervisor, c: ServerConfig, host: Host, outcome: SpawnOutcome): (r: Step)
    ensures r.ok <==> c.id !in s.processes && outcome.Confirmed?
    ensures c.id in s.processes ==> r.sup == Emit(s, ErrorOccurred(c.id, AlreadyRunning))
    ensures !r.ok ==> r.sup.processes == s.processes && r.sup.configs == s.configs
    ensures r.ok ==> r.sup == StartConfirmed(s, c, host)
    ensures c.id !in s.processes && !outcome.Confirmed? ==> r.sup == StartFailed(s, c, host, outcome)
  {
    if c.id in s.processes then
      Step(Emit(s, ErrorOccurred(c.id, AlreadyRunning)), false)
    else if outcome.Confirmed? then
      Step(StartConfirmed(s, c, host), true)
    else
      Step(StartFailed(s, c, host, outcome), false)
  }

  /** Whether a stop ends the process within the wait: it is tracked, it is
      running, and it exits before the wait is over. */
  predicate ExitsInStop(s: Supervisor, id: string, outcome: StopOutcome)
  {
    id in s.processes && s.processes[id].state == Running && outcome.ExitedInWait?
  }

  /** `stop_server`: false exactly when the id has no process. A running
      process is asked to terminate and waited for. If it exits within the
      wait, it reports not running and then its exit before the call
      returns, and both reports are handled as usual; if it outlives the
      wait it is killed, and its reports arrive later. A tracked process
      that is not running is left alone. */
  function Stop(s: Supervisor, id: string, outcome: StopOutcome): (r: Step)
    ensures r.ok <==> id in s.processes
    ensures !ExitsInStop(s, id, outcome) ==> r.sup == s
    ensures ExitsInStop(s, id, outcome) ==> r.sup.processes == s.processes - {id}
    ensures ExitsInStop(s, id, outcome) && id in s.configs ==> (
              var extra := if id in s.logs then [LogsUpdated(id)] else [];
              && r.sup.configs == s.configs - {id}
              && r.sup.trace == s.trace + [StatusChanged(id, Offline)] + extra + [StatusChanged(id, Offline)] + extra
              && (id in s.logs ==> r.sup.logs == s.logs[id := s.logs[id] + [StoppedLine, ExitLine(outcome.exitCode)]])
              && (id !in s.logs ==> r.sup.logs == s.logs))
  {
    if ExitsInStop(s, id, outcome) then
      var down := OnNotification(s, StateChanged(id, NotRunning));
      var r := OnNotification(down, Finished(id, outcome.exitCode));
      assert id in s.configs && id in s.logs ==> r.logs == s.logs[id := s.logs[id] + [StoppedLine, ExitLine(outcome.exitCode)]] by {
        if id in s.logs {
          var xs := s.logs[id];
          UpdateTwice(s.logs, id, xs + [StoppedLine], xs + [StoppedLine] + [ExitLine(outcome.exitCode)]);
          assert xs + [StoppedLine] + [ExitLine(outcome.exitCode)] == xs + [StoppedLine, ExitLine(outcome.exitCode)];
        }
      }
      Step(r, true)
    else
      Step(s, id in s.processes)
  }

  /** `get_status`: the status a poll reports, from the tracked process's state. */
  function GetStatus(s: Supervisor, id: string): (st: Status)
    ensures id !in s.processes ==> st == Offline
    ensures st == Online <==> id in s.processes && s.processes[id].state == Running
    ensures st == Status.Starting <==> id in s.processes && s.processes[id].state == ProcState.Starting
    ensures st != Error
  {
    if id !in s.processes then Offline
    else match s.processes[id].state
      case Running => Online
      case Starting => Status.Starting
      case NotRunning => Offline
  }

  /** `get_logs`: the id's log lines joined by newlines, or empty. */
  function GetLogs(s: Supervisor, id: string): (text: string)
    ensures id !in s.logs ==> text == ""
    ensures id in s.logs && |s.logs[id]| == 1 ==> text == s.logs[id][0]
  {
    Text.Join(if id in s.logs then s.logs[id] else [], "\n")
  }

  /** `clear_logs`: a known id's log becomes empty with one announcement;
      an unknown id changes nothing. */
  function ClearLogs(s: Supervisor, id: string): (r: Supervisor)
    ensures r.processes == s.processes && r.configs == s.configs
    ensures id in s.logs ==> r.logs == s.logs[id := []] && r.trace == s.trace + [LogsUpdated(id)]
    ensures id !in s.logs ==> r == s
  {
    if id in s.logs then Emit(s.(logs := s.logs[id := []]), LogsUpdated(id)) else s
  }

  // ---------------------------------------------------------------------
  // Handlers for what a process reports

  /** New standard output: signalled, and appended to the log if the id has one. */
  function HandleStdout(s: Supervisor, id: string, chunk: string): (r: Supervisor)
    ensures r.processes == s.processes && r.configs == s.configs
    ensures id in s.logs ==> r.logs == s.logs[id := s.logs[id] + [chunk]]
    ensures id in s.logs ==> r.trace == s.trace + [OutputReceived(id, chunk), LogsUpdated(id)]
    ensures id !in s.logs ==> r.logs == s.logs && r.trace == s.trace + [OutputReceived(id, chunk)]
  {
    Log(Emit(s, OutputReceived(id, chunk)), id, chunk)
  }

  /** New error output: signalled as an error, the status is set to error,
      and it is logged with an `ERROR: ` prefix. The process keeps running. */
  function HandleStderr(s: Supervisor, id: string, text: string): (r: Supervisor)
    ensures r.processes == s.processes && r.configs == s.configs
    ensures id in s.logs ==> r.logs == s.logs[id := s.logs[id] + ["ERROR: " + text]]
    ensures id !in s.logs ==> r.logs == s.logs
    ensures r.trace == s.trace + [ErrorOccurred(id, text), StatusChanged(id, Error)]
                       + (if id in s.logs then [LogsUpdated(id)] else [])
  {
    Log(Emit(Emit(s, ErrorOccurred(id, text)), StatusChanged(id, Error)), id, "ERROR: " + text)
  }

  /** A state change: running signals "online", not running signals
      "offline", each with a log line; starting is not reported. */
  function HandleStateChange(s: Supervisor, id: string, st: ProcState): (r: Supervisor)
    ensures r.processes == s.processes && r.configs == s.configs
    ensures st == ProcState.Starting ==> r == s
    ensures st != ProcState.Starting ==>
              r.trace == s.trace + [StatusChanged(id, if st == Running then Online else Offline)]
                         + (if id in s.logs then [LogsUpdated(id)] else [])
    ensures id !in s.logs ==> r.logs == s.logs
    ensures id in s.logs && st != ProcState.Starting ==>
              r.logs == s.logs[id := s.logs[id] + [if st == Running then RunningLine else StoppedLine]]
  {
    match st
    case Running => Log(Emit(s, StatusChanged(id, Online)), id, RunningLine)
    case NotRunning => Log(Emit(s, StatusChanged(id, Offline)), id, StoppedLine)
    case Starting => s
  }

  /** `_handle_finished`: a tracked id is dropped from both maps, "offline"
      is signalled and the exit code logged; an untracked id is ignored.
      The second branch is the path where the configuration is missing,
      which raises after the process was dropped; it cannot happen while
      `KeysAgree` holds. */
  function HandleFinished(s: Supervisor, id: string, exitCode: int): (r: Supervisor)
    ensures KeysAgree(s) ==> KeysAgree(r)
    ensures id !in s.processes ==> r == s
    ensures r.processes == s.processes - {id}
    ensures id in s.processes && id in s.configs ==> (
              && r.configs == s.configs - {id}
              && r.trace == s.trace + [StatusChanged(id, Offline)] + (if id in s.logs then [LogsUpdated(id)] else [])
              && (id in s.logs ==> r.logs == s.logs[id := s.logs[id] + [ExitLine(exitCode)]])
              && (id !in s.logs ==> r.logs == s.logs))
    ensures id !in s.configs ==> r.configs == s.configs && r.logs == s.logs && r.trace == s.trace
  {
    if id in s.processes then
      if id in s.configs then
        var dropped := s.(processes := s.processes - {id}, configs := s.configs - {id});
        Log(Emit(dropped, StatusChanged(id, Offline)), id, ExitLine(exitCode))
      else
        s.(processes := s.processes - {id})
    else
      assert s.processes - {id} == s.processes;
      s
  }

  // ---------------------------------------------------------------------
  // The whole state machine

  /** What the operating system can report about the process behind an id. */
  datatype Notification =
    | Stdout(id: string, chunk: string)
    | Stderr(id: string, text: string)
    | StateChanged(id: string, state: ProcState)
    | Finished(id: string, exitCode: int)

  /** Everything that can happen to the supervisor. */
  datatype Command =
    | StartCmd(config: ServerConfig, host: Host, outcome: SpawnOutcome)
    | StopCmd(id: string, stopOutcome: StopOutcome)
    | ClearLogsCmd(id: string)
    | Notify(n: Notification)

  /** The tracked process under an id moves to a new state (a report about
      an untracked id changes no process). */
  function SetState(s: Supervisor, id: string, st: ProcState): (r: Supervisor)
    ensures r.processes.Keys == s.processes.Keys && r.configs == s.configs && r.logs == s.logs && r.trace == s.trace
    ensures id in s.processes ==> r.processes[id].state == st
  {
    if id in s.processes then s.(processes := s.processes[id := s.processes[id].(state := st)]) else s
  }

  function OnNotification(s: Supervisor, n: Notification): Supervisor
  {
    match n
    case Stdout(id, chunk) => HandleStdout(s, id, chunk)
    case Stderr(id, text) => HandleStderr(s, id, text)
    case StateChanged(id, st) => HandleStateChange(SetState(s, id, st), id, st)
    case Finished(id, code) => HandleFinished(s, id, code)
  }

  function Apply(s: Supervisor, cmd: Command): Supervisor
  {
    match cmd
    case StartCmd(c, host, outcome) => Start(s, c, host, outcome).sup
    case StopCmd(id, outcome) => Stop(s, id, outcome).sup
    case ClearLogsCmd(id) => ClearLogs(s, id)
    case Notify(n) => OnNotification(s, n)
  }

  function Run(s: Supervisor, cmds: seq<Command>): Supervisor
    decreases |cmds|
  {
    if |cmds| == 0 then s else Run(Apply(s, cmds[0]), cmds[1..])
  }
}

/** Properties of the supervisor over all of its operations. */
module SupervisorFacts {
  import opened Wrappers
  import opened Config
  import opened Supervisor
  import Text

  /** The id a command concerns. */
  function Target(cmd: Command): string
  {
    match cmd
    case StartCmd(c, _, _) => c.id
    case StopCmd(id, _) => id
    case ClearLogsCmd(id) => id
    case Notify(n) => n.id
  }

  /** Every operation keeps the key sets of `processes` and `configs` equal. */
  lemma ApplyKeepsKeysAgree(s: Supervisor, cmd: Command)
    requires KeysAgree(s)
    ensures KeysAgree(Apply(s, cmd))
  {
    match cmd
    case StartCmd(c, host, outcome) =>
    case StopCmd(id, outcome) =>
    case ClearLogsCmd(id) =>
    case Notify(n) =>
  }

  /** ... and so does any run of operations from the initial state. */
  lemma {:induction false} RunKeepsKeysAgree(s: Supervisor, cmds: seq<Command>)
    requires KeysAgree(s)
    ensures KeysAgree(Run(s, cmds))
    decreases |cmds|
  {
    if |cmds| > 0 {
      ApplyKeepsKeysAgree(s, cmds[0]);
      RunKeepsKeysAgree(Apply(s, cmds[0]), cmds[1..]);
    }
  }

  /** Only the process's exit stops tracking an id: a finished report, or a
      stop during whose wait the process exits. A stop that the process
      outlives leaves it tracked until its exit is reported. */
  lemma OnlyExitUntracks(s: Supervisor, cmd: Command, id: string)
    requires id in s.processes && id !in Apply(s, cmd).processes
    ensures || (cmd.Notify? && cmd.n.Finished? && cmd.n.id == id)
            || (cmd.StopCmd? && cmd.id == id && ExitsInStop(s, id, cmd.stopOutcome))
  {
  }

  /** Every operation only appends to the trace. */
  lemma ApplyExtendsTrace(s: Supervisor, cmd: Command)
    ensures |s.trace| <= |Apply(s, cmd).trace|
    ensures Apply(s, cmd).trace[..|s.trace|] == s.trace
  {
    match cmd
    case StartCmd(c, host, outcome) => StartExtendsTrace(s, c, host, outcome);
    case StopCmd(id, outcome) => StopExtendsTrace(s, id, outcome);
    case ClearLogsCmd(_) =>
    case Notify(n) => NotificationExtendsTrace(s, n);
  }

  /** A start only appends signals. */
  lemma StartExtendsTrace(s: Supervisor, c: ServerConfig, host: Host, outcome: SpawnOutcome)
    ensures |s.trace| <= |Start(s, c, host, outcome).sup.trace|
    ensures Start(s, c, host, outcome).sup.trace[..|s.trace|] == s.trace
  {
  }

  /** A stop only appends signals. */
  lemma StopExtendsTrace(s: Supervisor, id: string, outcome: StopOutcome)
    ensures |s.trace| <= |Stop(s, id, outcome).sup.trace|
    ensures Stop(s, id, outcome).sup.trace[..|s.trace|] == s.trace
  {
    if ExitsInStop(s, id, outcome) {
      var down := OnNotification(s, StateChanged(id, NotRunning));
      NotificationExtendsTrace(s, StateChanged(id, NotRunning));
      NotificationExtendsTrace(down, Finished(id, outcome.exitCode));
    }
  }

  /** Handling a report only appends signals. */
  lemma NotificationExtendsTrace(s: Supervisor, n: Notification)
    ensures |s.trace| <= |OnNotification(s, n).trace|
    ensures OnNotification(s, n).trace[..|s.trace|] == s.trace
  {
  }

  /** Operations on one id leave every other id's log alone. */
  lemma OtherLogsUntouched(s: Supervisor, cmd: Command, other: string)
    requires other != Target(cmd)
    ensures other in Apply(s, cmd).logs <==> other in s.logs
    ensures other in s.logs ==> Apply(s, cmd).logs[other] == s.logs[other]
  {
    match cmd
    case StartCmd(c, host, outcome) => StartOtherLogs(s, c, host, outcome, other);
    case StopCmd(id, outcome) => StopOtherLogs(s, id, outcome, other);
    case ClearLogsCmd(_) =>
    case Notify(n) => NotificationOtherLogs(s, n, other);
  }

  /** A start touches only its own id's log. */
  lemma StartOtherLogs(s: Supervisor, c: ServerConfig, host: Host, outcome: SpawnOutcome, other: string)
    requires other != c.id
    ensures other in Start(s, c, host, outcome).sup.logs <==> other in s.logs
    ensures other in s.logs ==> Start(s, c, host, outcome).sup.logs[other] == s.logs[other]
  {
  }

  /** A stop touches only its own id's log. */
  lemma StopOtherLogs(s: Supervisor, id: string, outcome: StopOutcome, other: string)
    requires other != id
    ensures other in Stop(s, id, outcome).sup.logs <==> other in s.logs
    ensures other in s.logs ==> Stop(s, id, outcome).sup.logs[other] == s.logs[other]
  {
    if ExitsInStop(s, id, outcome) {
      var down := OnNotification(s, StateChanged(id, NotRunning));
      NotificationOtherLogs(s, StateChanged(id, NotRunning), other);
      NotificationOtherLogs(down, Finished(id, outcome.exitCode), other);
    }
  }

  /** A report touches only its own id's log. */
  lemma NotificationOtherLogs(s: Supervisor, n: Notification, other: string)
    requires other != n.id
    ensures other in OnNotification(s, n).logs <==> other in s.logs
    ensures other in s.logs ==> OnNotification(s, n).logs[other] == s.logs[other]
  {
  }

  /** Whenever an id's log changes, `logs_updated` for that id is among the
      signals the operation emitted. */
  lemma LogChangesAnnounced(s: Supervisor, cmd: Command, id: string)
    requires id in Apply(s, cmd).logs
    requires id !in s.logs || Apply(s, cmd).logs[id] != s.logs[id]
    ensures exists k :: |s.trace| <= k < |Apply(s, cmd).trace| && Apply(s, cmd).trace[k] == LogsUpdated(id)
  {
    if id != Target(cmd) {
      OtherLogsUntouched(s, cmd, id);
    } else {
      match cmd
      case StartCmd(c, host, outcome) =>
        StartAnnounces(s, c, host, outcome);
      case StopCmd(_, outcome) =>
        StopAnnounces(s, id, outcome);
      case ClearLogsCmd(_) =>
        assert Apply(s, cmd).trace[|s.trace|] == LogsUpdated(id);
      case Notify(n) =>
        NotificationAnnounces(s, n);
    }
  }

  /** A start that changes its log announces it first. */
  lemma StartAnnounces(s: Supervisor, c: ServerConfig, host: Host, outcome: SpawnOutcome)
    requires c.id in Start(s, c, host, outcome).sup.logs
    requires c.id !in s.logs || Start(s, c, host, outcome).sup.logs[c.id] != s.logs[c.id]
    ensures |s.trace| < |Start(s, c, host, outcome).sup.trace|
    ensures Start(s, c, host, outcome).sup.trace[|s.trace|] == LogsUpdated(c.id)
  {
  }

  /** A stop that changes its id's log announces it. */
  lemma StopAnnounces(s: Supervisor, id: string, outcome: StopOutcome)
    requires id in Stop(s, id, outcome).sup.logs
    requires id !in s.logs || Stop(s, id, outcome).sup.logs[id] != s.logs[id]
    ensures exists k :: |s.trace| <= k < |Stop(s, id, outcome).sup.trace| && Stop(s, id, outcome).sup.trace[k] == LogsUpdated(id)
  {
    var down := OnNotification(s, StateChanged(id, NotRunning));
    NotificationAnnounces(s, StateChanged(id, NotRunning));
    NotificationExtendsTrace(down, Finished(id, outcome.exitCode));
    var k :| |s.trace| <= k < |down.trace| && down.trace[k] == LogsUpdated(id);
    var r := Stop(s, id, outcome).sup;
    assert r.trace[..|down.trace|][k] == LogsUpdated(id);
  }

  /** A report that changes its id's log announces it. */
  lemma NotificationAnnounces(s: Supervisor, n: Notification)
    requires n.id in OnNotification(s, n).logs
    requires n.id !in s.logs || OnNotification(s, n).logs[n.id] != s.logs[n.id]
    ensures exists k :: |s.trace| <= k < |OnNotification(s, n).trace| && OnNotification(s, n).trace[k] == LogsUpdated(n.id)
  {
    var r := OnNotification(s, n);
    var id := n.id;
    match n
    case Stdout(_, chunk) =>
      assert r.trace[|s.trace| + 1] == LogsUpdated(id);
    case Stderr(_, text) =>
      assert r.trace == s.trace + [ErrorOccurred(id, text), StatusChanged(id, Error), LogsUpdated(id)];
      assert r.trace[|s.trace| + 2] == LogsUpdated(id);
    case StateChanged(_, st) =>
      var t := SetState(s, id, st);
      assert r.trace == t.trace + [StatusChanged(id, if st == Running then Online else Offline), LogsUpdated(id)];
      assert r.trace[|s.trace| + 1] == LogsUpdated(id);
    case Finished(_, code) =>
      if id in s.configs {
        assert r.trace[|s.trace| + 1] == LogsUpdated(id);
      }
  }

  // ---------------------------------------------------------------------
  // Status poll against the signalled status

  /** The status most recently signalled for `id` in a trace, if any. */
  function LastStatus(trace: seq<Event>, id: string): Option<Status>
  {
    if |trace| == 0 then None
    else
      var e := trace[|trace| - 1];
      if e.StatusChanged? && e.id == id then Some(e.status)
      else LastStatus(trace[..|trace| - 1], id)
  }

  /** The latest status signal in `t + u` is the latest in `u`, or failing
      that the latest in `t`. */
  lemma {:induction false} LastStatusAppend(t: seq<Event>, u: seq<Event>, id: string)
    ensures LastStatus(t + u, id) == if LastStatus(u, id).Some? then LastStatus(u, id) else LastStatus(t, id)
    decreases |u|
  {
    if |u| == 0 {
      assert t + u == t;
    } else {
      assert (t + u)[..|t + u| - 1] == t + u[..|u| - 1];
      LastStatusAppend(t, u[..|u| - 1], id);
    }
  }

  /** After the process reports running or not running, or finishes, the
      status a poll returns is the status last signalled for the id. */
  lemma PollAgreesAfterReport(s: Supervisor, n: Notification)
    requires KeysAgree(s)
    requires n.StateChanged? ==> n.state != ProcState.Starting
    requires (n.StateChanged? || n.Finished?) && n.id in s.processes
    ensures LastStatus(OnNotification(s, n).trace, n.id) == Some(GetStatus(OnNotification(s, n), n.id))
  {
    var id := n.id;
    var st := if n.StateChanged? && n.state == Running then Online else Offline;
    var extra := if id in s.logs then [LogsUpdated(id)] else [];
    ReportTrace(s, n);
    var u := [StatusChanged(id, st)] + extra;
    AppendAssoc(s.trace, [StatusChanged(id, st)], extra);
    assert u[..|u| - |extra|] == [StatusChanged(id, st)];
    assert LastStatus(u, id) == Some(st);
    LastStatusAppend(s.trace, u, id);
  }

  /** What a running, not-running or finished report emits, and what a poll
      then returns. */
  lemma ReportTrace(s: Supervisor, n: Notification)
    requires KeysAgree(s)
    requires n.StateChanged? ==> n.state != ProcState.Starting
    requires (n.StateChanged? || n.Finished?) && n.id in s.processes
    ensures var st := if n.StateChanged? && n.state == Running then Online else Offline;
      && GetStatus(OnNotification(s, n), n.id) == st
      && OnNotification(s, n).trace
         == s.trace + [StatusChanged(n.id, st)] + (if n.id in s.logs then [LogsUpdated(n.id)] else [])
  {
  }

  /** Right after a confirmed start the two disagree: the poll reports
      "online" (the start was confirmed, so the process is running) while
      the last signal, which came after the "online" of the running report,
      says "starting". */
  lemma ConfirmedStartPollDisagrees(s: Supervisor, c: ServerConfig, host: Host)
    requires c.id !in s.processes
    ensures var r := Start(s, c, host, Confirmed).sup;
      && GetStatus(r, c.id) == Online
      && LastStatus(r.trace, c.id) == Some(Status.Starting)
  {
    var r := Start(s, c, host, Confirmed).sup;
    var u := [LogsUpdated(c.id), StatusChanged(c.id, Online), LogsUpdated(c.id),
              LogsUpdated(c.id), StatusChanged(c.id, Status.Starting)];
    assert r.trace == s.trace + u;
    LastStatusAppend(s.trace, u, c.id);
  }

  /** A start that fails leaves the id offline for a poll and signals the
      error exactly once, last. A process that failed to start signalled
      "offline" during the wait, so the last status signalled agrees with
      the poll; a time-out or an exception signals no status. */
  lemma FailedStartStaysOffline(s: Supervisor, c: ServerConfig, host: Host, outcome: SpawnOutcome)
    requires c.id !in s.processes && !outcome.Confirmed?
    ensures var r := Start(s, c, host, outcome);
      && !r.ok
      && GetStatus(r.sup, c.id) == Offline
      && |r.sup.trace| == |s.trace| + (if outcome.FailedToStart? then 5 else 3)
      && r.sup.trace[|r.sup.trace| - 1] == ErrorOccurred(c.id, FailureMessage(outcome))
      && (forall k :: |s.trace| <= k < |r.sup.trace| - 1 ==> !r.sup.trace[k].ErrorOccurred?)
      && LastStatus(r.sup.trace, c.id) == (if outcome.FailedToStart? then Some(Offline) else LastStatus(s.trace, c.id))
  {
    var r := Start(s, c, host, outcome).sup;
    var msg := FailureMessage(outcome);
    if outcome.FailedToStart? {
      var head := s.trace + [LogsUpdated(c.id), StatusChanged(c.id, Offline)];
      var tail := [LogsUpdated(c.id), LogsUpdated(c.id), ErrorOccurred(c.id, msg)];
      assert r.trace == head + tail;
      LastStatusNone(tail, c.id);
      LastStatusAppend(head, tail, c.id);
    } else {
      var tail := [LogsUpdated(c.id), LogsUpdated(c.id), ErrorOccurred(c.id, msg)];
      assert r.trace == s.trace + tail;
      LastStatusNone(tail, c.id);
      LastStatusAppend(s.trace, tail, c.id);
    }
  }

  /** A stretch of signals without a status for the id has no latest status for it. */
  lemma {:induction false} LastStatusNone(u: seq<Event>, id: string)
    requires forall k :: 0 <= k < |u| ==> !(u[k].StatusChanged? && u[k].id == id)
    ensures LastStatus(u, id) == None
    decreases |u|
  {
    if |u| > 0 {
      LastStatusNone(u[..|u| - 1], id);
    }
  }

  /** Signals that only report a status or a log update, all for one id. */
  predicate QuietFor(events: seq<Event>, id: string)
  {
    forall k :: 0 <= k < |events| ==> (events[k].StatusChanged? || events[k].LogsUpdated?) && events[k].id == id
  }

  /** A status report followed by at most its log announcement. */
  lemma LastStatusOfReport(id: string, st: Status, extra: seq<Event>)
    requires extra == [] || extra == [LogsUpdated(id)]
    ensures LastStatus([StatusChanged(id, st)] + extra, id) == Some(st)
  {
    var u := [StatusChanged(id, st)] + extra;
    assert u[..|u| - |extra|] == [StatusChanged(id, st)];
  }

  /** What a stop emits, in any state: only status and log signals for its
      id, with "offline" as the last status exactly when the process exits
      within the wait. */
  lemma StopSignals(s: Supervisor, id: string, outcome: StopOutcome)
    ensures var r := Stop(s, id, outcome).sup;
      && |s.trace| <= |r.trace|
      && QuietFor(r.trace[|s.trace|..], id)
      && LastStatus(r.trace[|s.trace|..], id) == (if ExitsInStop(s, id, outcome) then Some(Offline) else None)
  {
    var r := Stop(s, id, outcome).sup;
    if ExitsInStop(s, id, outcome) {
      StopExitSignals(s, id, outcome.exitCode);
    } else {
      assert r.trace[|s.trace|..] == [];
    }
  }

  /** The exit case of `StopSignals`. */
  lemma StopExitSignals(s: Supervisor, id: string, code: int)
    requires ExitsInStop(s, id, ExitedInWait(code))
    ensures var r := Stop(s, id, ExitedInWait(code)).sup;
      && |s.trace| <= |r.trace|
      && QuietFor(r.trace[|s.trace|..], id)
      && LastStatus(r.trace[|s.trace|..], id) == Some(Offline)
  {
    var r := Stop(s, id, ExitedInWait(code)).sup;
    var extra := if id in s.logs then [LogsUpdated(id)] else [];
    var first := [StatusChanged(id, Offline)] + extra;
    assert QuietFor(first, id);
    LastStatusOfReport(id, Offline, extra);
    if id in s.configs {
      assert r.trace == s.trace + (first + first);
      assert r.trace[|s.trace|..] == first + first;
      QuietAppend(first, first, id);
      LastStatusAppend(first, first, id);
    } else {
      var down := OnNotification(s, StateChanged(id, NotRunning));
      assert down.trace == s.trace + first;
      assert r.trace == down.trace;
      assert r.trace[|s.trace|..] == first;
    }
  }

  /** Two runs of such signals for one id make one. */
  lemma QuietAppend(a: seq<Event>, b: seq<Event>, id: string)
    requires QuietFor(a, id) && QuietFor(b, id)
    ensures QuietFor(a + b, id)
  {
    forall k | 0 <= k < |a + b|
      ensures ((a + b)[k].StatusChanged? || (a + b)[k].LogsUpdated?) && (a + b)[k].id == id
    {
      if k >= |a| {
        assert (a + b)[k] == b[k - |a|];
      }
    }
  }

  /** A stop during whose wait the process exits untracks it: "offline" is
      signalled twice, once for the state change and once for the exit, and
      a poll then agrees with the last signal. */
  lemma StopExitUntracks(s: Supervisor, id: string, code: int)
    requires KeysAgree(s) && id in s.processes && s.processes[id].state == Running
    ensures var r := Stop(s, id, ExitedInWait(code)).sup;
      && KeysAgree(r) && id !in r.processes
      && GetStatus(r, id) == Offline
      && LastStatus(r.trace, id) == Some(Offline)
      && |r.trace| == |s.trace| + (if id in s.logs then 4 else 2)
  {
    var r := Stop(s, id, ExitedInWait(code)).sup;
    var extra := if id in s.logs then [LogsUpdated(id)] else [];
    var u := [StatusChanged(id, Offline)] + extra;
    AppendAssoc(s.trace + [StatusChanged(id, Offline)] + extra, [StatusChanged(id, Offline)], extra);
    assert r.trace == (s.trace + [StatusChanged(id, Offline)] + extra) + u;
    assert u[..|u| - |extra|] == [StatusChanged(id, Offline)];
    assert LastStatus(u, id) == Some(Offline);
    LastStatusAppend(s.trace + [StatusChanged(id, Offline)] + extra, u, id);
  }

  // ---------------------------------------------------------------------
  // Logs

  /** Two lines logged for one id read back in the order they were logged,
      after whatever the log already held. */
  lemma LogReadBackInOrder(s: Supervisor, id: string, a: string, b: string)
    requires id in s.logs
    ensures var r := Log(Log(s, id, a), id, b);
      GetLogs(r, id) == (if s.logs[id] == [] then a + "\n" + b else GetLogs(s, id) + "\n" + a + "\n" + b)
  {
    var xs := s.logs[id];
    var r := Log(Log(s, id, a), id, b);
    assert r.logs[id] == xs + [a] + [b];
    if xs == [] {
      assert xs + [a] + [b] == [a] + [b];
      Text.JoinSnoc([a], b, "\n");
    } else {
      Text.JoinSnoc(xs, a, "\n");
      Text.JoinSnoc(xs + [a], b, "\n");
    }
  }

  /** After clearing, a known id's log reads back empty and exactly one
      `logs_updated` was emitted for it. */
  lemma ClearThenRead(s: Supervisor, id: string)
    requires id in s.logs
    ensures GetLogs(ClearLogs(s, id), id) == ""
    ensures ClearLogs(s, id).trace[|s.trace|..] == [LogsUpdated(id)]
  {
  }
}

=== FILE: text.dfy ===
/** Python string primitives the manager relies on: `sep.join(items)`,
    `str(int)` in decimal, and `str.strip()` with Python's notion of
    whitespace. */
module Text {

  /** `sep.join(items)`. */
  function Join(items: seq<string>, sep: string): string
  {
    if |items| == 0 then ""
    else if |items| == 1 then items[0]
    else items[0] + sep + Join(items[1..], sep)
  }

  /** Joining is associative with appending one more item: the new item
      comes last, after exactly one separator. */
  lemma {:induction false} JoinSnoc(items: seq<string>, x: string, sep: string)
    requires |items| > 0
    ensures Join(items + [x], sep) == Join(items, sep) + sep + x
  {
    if |items| == 1 {
      assert items + [x] == [items[0], x];
      assert ([items[0], x])[1..] == [x];
    } else {
      assert (items + [x])[1..] == items[1..] + [x];
      JoinSnoc(items[1..], x, sep);
    }
  }

  /** The decimal digit for 0..9. */
  function Digit(d: nat): char
    requires d < 10
  {
    "0123456789"[d]
  }

  predicate IsDigit(c: char)
  {
    '0' <= c <= '9'
  }

  /** The value of a decimal digit character. */
  function DigitValue(c: char): nat
    requires IsDigit(c)
  {
    (c as int - '0' as int) as nat
  }

  /** `str(n)` for a natural number: decimal, no leading zeros. */
  function NatToString(n: nat): (r: string)
    ensures |r| >= 1
    ensures forall k :: 0 <= k < |r| ==> IsDigit(r[k])
    ensures r[0] == '0' ==> n == 0
  {
    if n < 10 then [Digit(n)] else NatToString(n / 10) + [Digit(n % 10)]
  }

  /** Reads a string of decimal digits back as a number. */
  function DecimalValue(s: string): nat
    requires forall k :: 0 <= k < |s| ==> IsDigit(s[k])
  {
    if |s| == 0 then 0 else DecimalValue(s[..|s| - 1]) * 10 + DigitValue(s[|s| - 1])
  }

  /** Decimal rendering is read back to the same number. */
  lemma {:induction false} DecimalRoundTrip(n: nat)
    ensures DecimalValue(NatToString(n)) == n
  {
    var r := NatToString(n);
    if n < 10 {
      assert r[..0] == [];
    } else {
      var p := NatToString(n / 10);
      assert r == p + [Digit(n % 10)];
      assert r[..|r| - 1] == p;
      DecimalRoundTrip(n / 10);
    }
  }

  /** Distinct numbers have distinct decimal renderings. */
  lemma NatToStringInjective(a: nat, b: nat)
    requires NatToString(a) == NatToString(b)
    ensures a == b
  {
    DecimalRoundTrip(a);
    DecimalRoundTrip(b);
  }

  /** `str(i)` for any integer: a minus sign before the magnitude. */
  function IntToString(i: int): (r: string)
    ensures |r| >= 1
    ensures i < 0 <==> r[0] == '-'
  {
    if i < 0 then "-" + NatToString(-i) else NatToString(i)
  }

  /** Python's `str.isspace()` for one character: the ASCII whitespace
      and separator controls plus the Unicode space separators. */
  predicate IsSpace(c: char)
  {
    || c == ' ' || c == '\t' || c == '\n' || c == '\r'
    || c == '\U{000B}' || c == '\U{000C}'
    || ('\U{001C}' <= c <= '\U{001F}')
    || c == '\U{0085}' || c == '\U{00A0}' || c == '\U{1680}'
    || ('\U{2000}' <= c <= '\U{200A}')
    || c == '\U{2028}' || c == '\U{2029}' || c == '\U{202F}'
    || c == '\U{205F}' || c == '\U{3000}'
  }

  predicate AllSpace(s: string)
  {
    forall k :: 0 <= k < |s| ==> IsSpace(s[k])
  }

  /** Number of leading whitespace characters. */
  function Lead(s: string): (n: nat)
    ensures n <= |s|
    ensures n < |s| ==> !IsSpace(s[n])
  {
    if |s| == 0 || !IsSpace(s[0]) then 0 else 1 + Lead(s[1..])
  }

  /** Number of trailing whitespace characters. */
  function Trail(s: string): (n: nat)
    ensures n <= |s|
    ensures n < |s| ==> !IsSpace(s[|s| - 1 - n])
  {
    if |s| == 0 || !IsSpace(s[|s| - 1]) then 0 else 1 + Trail(s[..|s| - 1])
  }

  /** The leading run is whitespace. */
  lemma {:induction false} LeadIsSpace(s: string)
    ensures AllSpace(s[..Lead(s)])
    decreases |s|
  {
    if |s| > 0 && IsSpace(s[0]) {
      var rest := s[1..];
      LeadIsSpace(rest);
      var h := s[..Lead(s)];
      forall k | 0 <= k < |h| ensures IsSpace(h[k]) {
        if k > 0 {
          assert h[k] == rest[..Lead(rest)][k - 1];
        }
      }
    }
  }

  /** The trailing run is whitespace. */
  lemma {:induction false} TrailIsSpace(s: string)
    ensures AllSpace(s[|s| - Trail(s)..])
    decreases |s|
  {
    if |s| > 0 && IsSpace(s[|s| - 1]) {
      var front := s[..|s| - 1];
      TrailIsSpace(front);
      var h := s[|s| - Trail(s)..];
      forall k | 0 <= k < |h| ensures IsSpace(h[k]) {
        if k < |h| - 1 {
          assert h[k] == front[|front| - Trail(front)..][k];
        }
      }
    }
  }

  /** The leading run stops at the first character that is not whitespace. */
  lemma {:induction false} LeadStops(s: string, k: nat)
    requires k < |s| && !IsSpace(s[k])
    ensures Lead(s) <= k
    decreases |s|
  {
    if IsSpace(s[0]) {
      assert s[1..][k - 1] == s[k];
      LeadStops(s[1..], k - 1);
    }
  }

  /** The trailing run stops at the last character that is not whitespace. */
  lemma {:induction false} TrailStops(s: string, k: nat)
    requires k < |s| && !IsSpace(s[k])
    ensures Trail(s) < |s| - k
    decreases |s|
  {
    if IsSpace(s[|s| - 1]) {
      assert s[..|s| - 1][k] == s[k];
      TrailStops(s[..|s| - 1], k);
    }
  }

  /** All-whitespace text is one leading run. */
  lemma {:induction false} LeadOfAllSpace(s: string)
    requires AllSpace(s)
    ensures Lead(s) == |s|
    decreases |s|
  {
    if |s| > 0 {
      assert IsSpace(s[0]);
      assert AllSpace(s[1..]) by {
        forall k | 0 <= k < |s| - 1 ensures IsSpace(s[1..][k]) {
          assert s[1..][k] == s[k + 1];
        }
      }
      LeadOfAllSpace(s[1..]);
    }
  }

  /** `s.strip()`: whitespace removed from both ends. */
  function Strip(s: string): (r: string)
    ensures |r| <= |s|
    ensures r != [] ==> !IsSpace(r[0]) && !IsSpace(r[|r| - 1])
  {
    var t := s[Lead(s)..];
    t[..|t| - Trail(t)]
  }

  /** Strip leaves nothing exactly when the text is all whitespace. */
  lemma StripEmpty(s: string)
    ensures Strip(s) == [] <==> AllSpace(s)
  {
    if AllSpace(s) {
      LeadOfAllSpace(s);
    } else {
      var k :| 0 <= k < |s| && !IsSpace(s[k]);
      var i := Lead(s);
      LeadStops(s, k);
      var t := s[i..];
      assert t[k - i] == s[k];
      TrailStops(t, k - i);
    }
  }

  /** What strip removes is whitespace only: the result is the slice of the
      input between its leading and its trailing whitespace. */
  lemma StripIsSlice(s: string)
    ensures var i := Lead(s);
      var t := s[i..];
      var n := |t| - Trail(t);
      && i + n <= |s|
      && Strip(s) == s[i..i + n]
      && AllSpace(s[..i]) && AllSpace(s[i + n..])
  {
    StripSlice(s);
    SpaceAroundStrip(s);
  }

  /** Strip keeps the slice between the two whitespace runs. */
  lemma StripSlice(s: string)
    ensures var i := Lead(s);
      var t := s[i..];
      var n := |t| - Trail(t);
      i + n <= |s| && Strip(s) == s[i..i + n]
  {
    var i := Lead(s);
    var t := s[i..];
    SliceOfSuffix(s, i, |t| - Trail(t));
  }

  /** Everything before and after that slice is whitespace. */
  lemma SpaceAroundStrip(s: string)
    ensures var i := Lead(s);
      var t := s[i..];
      var n := |t| - Trail(t);
      i + n <= |s| && AllSpace(s[..i]) && AllSpace(s[i + n..])
  {
    var i := Lead(s);
    var t := s[i..];
    var n := |t| - Trail(t);
    SliceOfSuffix(s, i, n);
    LeadIsSpace(s);
    TrailIsSpace(t);
  }

  /** Slicing a suffix is slicing the whole. */
  lemma SliceOfSuffix(s: string, i: nat, n: nat)
    requires i + n <= |s|
    ensures s[i..][..n] == s[i..i + n]
    ensures s[i..][n..] == s[i + n..]
  {
  }

  /** Stripping twice is stripping once. */
  lemma StripIdempotent(s: string)
    ensures Strip(Strip(s)) == Strip(s)
  {
    var r := Strip(s);
    if r != [] {
      assert Lead(r) == 0;
      assert Trail(r[0..]) == 0;
      assert r[0..] == r;
    }
  }

  /** A string with no whitespace at either end is its own strip. */
  lemma StripOfTrimmed(s: string)
    requires s == [] || (!IsSpace(s[0]) && !IsSpace(s[|s| - 1]))
    ensures Strip(s) == s
  {
    if s != [] {
      assert s[0..] == s;
    }
  }
}

=== FILE: toast.dfy ===
/** Toast notifications (toast.py, `ToastManager`): a bounded FIFO of
    pending messages with one message on display, and the corner placement
    of the message on display. Timers and fade animations are left out:
    a dismissal stands for the display timer firing and the fade-out
    finishing. */
module Toast {
  import opened Wrappers

  /** `ToastLevel`. */
  datatype Level = Info | Success | Warning | Error

  function LevelName(l: Level): string
  {
    match l
    case Info => "info"
    case Success => "success"
    case Warning => "warning"
    case Error => "error"
  }

  /** `ToastLevel(s)` for a string: one of the four values, or no level. */
  function ParseLevel(s: string): (r: Option<Level>)
    ensures r.Some? ==> LevelName(r.value) == s
  {
    if s == "info" then Some(Info)
    else if s == "success" then Some(Level.Success)
    else if s == "warning" then Some(Warning)
    else if s == "error" then Some(Error)
    else None
  }

  /** Exactly the four level names parse, each to its own level. */
  lemma ParseLevelExact(s: string, l: Level)
    ensures ParseLevel(s) == Some(l) <==> s == LevelName(l)
  {
  }

  /** The level argument of `show_toast`: a level, or a string to convert. */
  datatype LevelArg = Given(level: Level) | Named(name: string)

  /** A level is used as it is; a string is converted, and one that names
      no level raises `ValueError`. */
  function ResolveLevel(arg: LevelArg): (r: Result<Level, string>)
    ensures arg.Given? ==> r == Result.Success(arg.level)
    ensures arg.Named? ==> (r.Success? <==> ParseLevel(arg.name).Some?)
    ensures arg.Named? && r.Success? ==> LevelName(r.value) == arg.name
  {
    match arg
    case Given(l) => Result.Success(l)
    case Named(s) =>
      match ParseLevel(s)
      case Some(l) => Result.Success(l)
      case None => Failure("ValueError: '" + s + "' is not a valid ToastLevel")
  }

  /** `ToastConfig`. */
  datatype ToastConfig = ToastConfig(durationMs: int, position: string, margin: int, maxQueue: int, width: int)

  const Defaults: ToastConfig := ToastConfig(3500, "top-right", 16, 50, 320)

  datatype Message = Message(text: string, level: Level)

  /** The manager: its configuration, the pending messages (oldest first),
      the message on display, and every message displayed so far, in
      display order. */
  datatype Manager = Manager(cfg: ToastConfig, queue: seq<Message>, current: Option<Message>, shown: seq<Message>)

  function NewManager(cfg: ToastConfig): (m: Manager)
    ensures m.queue == [] && m.current.None? && m.shown == [] && m.cfg == cfg
  {
    Manager(cfg, [], None, [])
  }

  /** The manager's invariant: nothing waits while nothing is on display,
      and a positive bound holds for the queue. */
  predicate Valid(m: Manager)
  {
    && (m.current.None? ==> m.queue == [])
    && (m.cfg.maxQueue >= 1 ==> |m.queue| <= m.cfg.maxQueue)
  }

  /** Every message ever displayed or still pending, in order. */
  function Stream(m: Manager): seq<Message>
  {
    m.shown + m.queue
  }

  /** `_dequeue_and_show`: the oldest pending message goes on display; with
      nothing pending, nothing is on display. */
  function DequeueAndShow(m: Manager): (r: Manager)
    ensures r.cfg == m.cfg
    ensures m.queue == [] ==> r == m.(current := None)
    ensures m.queue != [] ==> (
              && r.current == Some(m.queue[0])
              && r.queue == m.queue[1..]
              && r.shown == m.shown + [m.queue[0]])
    ensures Stream(r) == Stream(m)
  {
    if m.queue == [] then m.(current := None)
    else
      assert m.shown + m.queue == (m.shown + [m.queue[0]]) + m.queue[1..];
      m.(current := Some(m.queue[0]), queue := m.queue[1..], shown := m.shown + [m.queue[0]])
  }

  /** `show_toast`. The level is resolved first; a full queue drops its
      oldest entry (an empty queue with a bound of zero or less has none to
      drop, and `popleft` raises); the message is appended and, if nothing
      is on display, the oldest pending message goes on display. */
  function ShowToast(m: Manager, text: string, arg: LevelArg): (r: Result<Manager, string>)
    ensures r.Success? <==> ResolveLevel(arg).Success? && (|m.queue| >= m.cfg.maxQueue ==> |m.queue| > 0)
    ensures r.Success? ==> r.value.cfg == m.cfg
    ensures r.Success? && m.current.Some? ==> r.value.current == m.current && r.value.shown == m.shown
    ensures r.Success? && m.current.None? && m.queue == [] ==>
              r.value.current == Some(Message(text, ResolveLevel(arg).value))
              && r.value.shown == m.shown + [Message(text, ResolveLevel(arg).value)]
              && r.value.queue == []
    ensures r.Success? && |m.queue| < m.cfg.maxQueue ==>
              Stream(r.value) == Stream(m) + [Message(text, ResolveLevel(arg).value)]
    ensures r.Success? && |m.queue| >= m.cfg.maxQueue ==>
              Stream(r.value) == m.shown + m.queue[1..] + [Message(text, ResolveLevel(arg).value)]
  {
    match ResolveLevel(arg)
    case Failure(e) => Failure(e)
    case Success(lvl) =>
      if |m.queue| >= m.cfg.maxQueue && |m.queue| == 0 then
        Failure("IndexError: pop from an empty deque")
      else
        var kept := if |m.queue| >= m.cfg.maxQueue then m.queue[1..] else m.queue;
        var queued := m.(queue := kept + [Message(text, lvl)]);
        if m.current.None? then Result.Success(DequeueAndShow(queued)) else Result.Success(queued)
  }

  /** `_dismiss_current`, once the display timer has fired and, in overlay
      mode, the fade-out has finished: nothing is on display, then the next
      pending message, if any, goes on display. */
  function Dismiss(m: Manager): (r: Manager)
    ensures r.cfg == m.cfg
    ensures m.queue == [] ==> r.current.None? && r.queue == [] && r.shown == m.shown
    ensures m.queue != [] ==> r.current == Some(m.queue[0]) && r.queue == m.queue[1..]
    ensures Stream(r) == Stream(m)
  {
    if m.current.None? then DequeueAndShow(m)
    else DequeueAndShow(m.(current := None))
  }

  /** Showing a message keeps the manager valid, whatever the bound: the
      queue never grows past a positive bound, and when it is full it is
      the oldest entry that goes. */
  lemma ShowToastKeepsValid(m: Manager, text: string, arg: LevelArg)
    requires Valid(m)
    ensures ShowToast(m, text, arg).Success? ==> Valid(ShowToast(m, text, arg).value)
  {
  }

  /** Dismissing keeps the manager valid. */
  lemma DismissKeepsValid(m: Manager)
    requires Valid(m)
    ensures Valid(Dismiss(m))
  {
  }

  /** Dismissing repeatedly. */
  function DismissTimes(m: Manager, n: nat): Manager
    decreases n
  {
    if n == 0 then m else DismissTimes(Dismiss(m), n - 1)
  }

  /** Messages are displayed first in, first out: dismissing once per
      pending message displays exactly the pending messages, in the order
      they were queued, and empties the queue. */
  lemma {:induction false} DrainInOrder(m: Manager)
    ensures var r := DismissTimes(m, |m.queue|);
      r.shown == m.shown + m.queue && r.queue == []
    decreases |m.queue|
  {
    if |m.queue| > 0 {
      var d := Dismiss(m);
      DrainInOrder(d);
      assert m.shown + m.queue == (m.shown + [m.queue[0]]) + m.queue[1..];
    }
  }

  /** Whatever is still pending ends up displayed after what has been
      displayed: the display order is a prefix of the stream, which no
      operation reorders. */
  lemma {:induction false} ShownIsPrefix(m: Manager, n: nat)
    ensures var r := DismissTimes(m, n);
      Stream(r) == Stream(m) && |m.shown| <= |r.shown| && r.shown[..|m.shown|] == m.shown
    decreases n
  {
    if n > 0 {
      var d := Dismiss(m);
      ShownIsPrefix(d, n - 1);
      var r := DismissTimes(d, n - 1);
      assert d.shown[..|m.shown|] == m.shown;
      assert r.shown[..|m.shown|] == r.shown[..|d.shown|][..|m.shown|];
    }
  }

  // ---------------------------------------------------------------------
  // Placement

  datatype Point = Point(x: int, y: int)

  /** `_position_current`: where the message on display goes, given the
      parent's global top-left corner and size and the toast's size. The
      status-bar mode does not place anything; an unknown position is
      placed like bottom-left. */
  function Position(position: string, gx: int, gy: int, pw: int, ph: int, tw: int, th: int, margin: int): (p: Option<Point>)
    ensures p.None? <==> position == "status-bar"
    ensures p.Some? && (position == "top-right" || position == "bottom-right") ==> p.value.x + tw + margin == gx + pw
    ensures p.Some? && !(position == "top-right" || position == "bottom-right") ==> p.value.x == gx + margin
    ensures p.Some? && (position == "top-right" || position == "top-left") ==> p.value.y == gy + margin
    ensures p.Some? && !(position == "top-right" || position == "top-left") ==> p.value.y + th + margin == gy + ph
  {
    if position == "status-bar" then None
    else if position == "top-right" then Some(Point(gx + pw - tw - margin, gy + margin))
    else if position == "top-left" then Some(Point(gx + margin, gy + margin))
    else if position == "bottom-right" then Some(Point(gx + pw - tw - margin, gy + ph - th - margin))
    else Some(Point(gx + margin, gy + ph - th - margin))
  }

  /** A toast that fits inside the parent with a margin on each side is
      placed wholly inside the parent, in every corner. */
  lemma PlacedInside(position: string, gx: int, gy: int, pw: int, ph: int, tw: int, th: int, margin: int)
    requires position != "status-bar"
    requires margin >= 0 && tw >= 0 && th >= 0
    requires tw + 2 * margin <= pw && th + 2 * margin <= ph
    ensures var p := Position(position, gx, gy, pw, ph, tw, th, margin).value;
      gx <= p.x && p.x + tw <= gx + pw && gy <= p.y && p.y + th <= gy + ph
  {
  }

  /** Left and right placements mirror each other across the parent. */
  lemma CornersMirror(gx: int, gy: int, pw: int, ph: int, tw: int, th: int, margin: int)
    ensures var l := Position("top-left", gx, gy, pw, ph, tw, th, margin).value;
      var r := Position("top-right", gx, gy, pw, ph, tw, th, margin).value;
      l.x - gx == (gx + pw) - (r.x + tw) && l.y == r.y
  {
  }
}

=== FILE: window.dfy ===
/** The main window (mcp_manager.py, `MCPManagerWindow`): the server list,
    the selection and the supervisor it drives, with the slots it connects
    to the supervisor's signals and the handlers behind its buttons.

    Qt delivers a signal to its slots synchronously, inside `emit`, so a
    slot runs before the emitting code takes its next step. The slots for
    output and error output append to the supervisor's logs themselves, as
    the supervisor does, and that is modelled as written. */
module Window {
  import opened Wrappers
  import opened Config
  import opened ServerList
  import Editor
  import Supervisor
  import SupervisorFacts

  datatype App = App(servers: seq<ServerConfig>, selected: Option<string>, sup: Supervisor.Supervisor)

  /** The window's invariant: ids are unique and the supervisor's maps agree. */
  predicate Consistent(app: App)
  {
    UniqueIds(app.servers) && Supervisor.KeysAgree(app.sup)
  }

  // ---------------------------------------------------------------------
  // Slots connected to the supervisor's signals

  /** The slot connected to one signal: a status change updates the first
      server with the id; output is appended to the id's log again, with an
      announcement; an error marks the server as errored and appends the
      `ERROR: ` line again; a log announcement changes no state. */
  function React(app: App, e: Supervisor.Event): (r: App)
    ensures Ids(r.servers) == Ids(app.servers) && r.selected == app.selected
    ensures r.sup.processes == app.sup.processes && r.sup.configs == app.sup.configs
    ensures e.StatusChanged? ==> r.servers == SetStatus(app.servers, e.id, e.status) && r.sup == app.sup
    ensures e.ErrorOccurred? ==> r.servers == SetStatus(app.servers, e.id, Error)
    ensures (e.OutputReceived? || e.LogsUpdated?) ==> r.servers == app.servers
    ensures e.OutputReceived? && e.id in app.sup.logs ==> r.sup.logs == app.sup.logs[e.id := app.sup.logs[e.id] + [e.text]]
    ensures e.ErrorOccurred? && e.id in app.sup.logs ==> r.sup.logs == app.sup.logs[e.id := app.sup.logs[e.id] + ["ERROR: " + e.text]]
    ensures e.id !in app.sup.logs || e.StatusChanged? || e.LogsUpdated? ==> r.sup.logs == app.sup.logs
  {
    match e
    case StatusChanged(id, st) => app.(servers := SetStatus(app.servers, id, st))
    case OutputReceived(id, text) => app.(sup := Supervisor.Log(app.sup, id, text))
    case ErrorOccurred(id, text) =>
      app.(servers := SetStatus(app.servers, id, Error), sup := Supervisor.Log(app.sup, id, "ERROR: " + text))
    case LogsUpdated(_) => app
  }

  /** A signal emitted by the supervisor: recorded, then handled by the slot. */
  function EmitTo(app: App, e: Supervisor.Event): App
  {
    React(app.(sup := Supervisor.Emit(app.sup, e)), e)
  }

  /** The slots run for each signal of a sequence, in order. */
  function Deliver(app: App, events: seq<Supervisor.Event>): (r: App)
    ensures Ids(r.servers) == Ids(app.servers) && r.selected == app.selected
    ensures r.sup.processes == app.sup.processes && r.sup.configs == app.sup.configs
    decreases |events|
  {
    if |events| == 0 then app else Deliver(React(app, events[0]), events[1..])
  }

  /** A supervisor operation followed by the slots for what it emitted.
      Every operation routed here either emits each signal last or emits
      only signals whose slots leave the supervisor alone, so running the
      slots after the operation ends in the state synchronous delivery
      reaches. */
  function AfterStep(app: App, cmd: Supervisor.Command): (r: App)
    ensures Ids(r.servers) == Ids(app.servers) && r.selected == app.selected
    ensures r.sup.processes == Supervisor.Apply(app.sup, cmd).processes
    ensures r.sup.configs == Supervisor.Apply(app.sup, cmd).configs
  {
    var next := Supervisor.Apply(app.sup, cmd);
    SupervisorFacts.ApplyExtendsTrace(app.sup, cmd);
    Deliver(app.(sup := next), next.trace[|app.sup.trace|..])
  }

  /** A report from a process, with the window connected. Output and error
      output are where the slots touch the supervisor between its own
      steps, so they are composed signal by signal. */
  function Notify(app: App, n: Supervisor.Notification): (r: App)
    ensures Ids(r.servers) == Ids(app.servers) && r.selected == app.selected
    ensures r.sup.processes == Supervisor.OnNotification(app.sup, n).processes
    ensures r.sup.configs == Supervisor.OnNotification(app.sup, n).configs
  {
    match n
    case Stdout(id, chunk) =>
      var a := EmitTo(app, Supervisor.OutputReceived(id, chunk));
      a.(sup := Supervisor.Log(a.sup, id, chunk))
    case Stderr(id, text) =>
      var a := EmitTo(EmitTo(app, Supervisor.ErrorOccurred(id, text)), Supervisor.StatusChanged(id, Error));
      a.(sup := Supervisor.Log(a.sup, id, "ERROR: " + text))
    case StateChanged(_, _) => AfterStep(app, Supervisor.Notify(n))
    case Finished(_, _) => AfterStep(app, Supervisor.Notify(n))
  }

  /** With the window connected, every chunk of output lands in the log
      twice, once from the window's slot and once from the supervisor,
      where the supervisor alone logs it once. */
  lemma StdoutLoggedTwice(app: App, id: string, chunk: string)
    requires id in app.sup.logs
    ensures Notify(app, Supervisor.Stdout(id, chunk)).sup.logs[id] == app.sup.logs[id] + [chunk, chunk]
    ensures Supervisor.HandleStdout(app.sup, id, chunk).logs[id] == app.sup.logs[id] + [chunk]
    ensures Notify(app, Supervisor.Stdout(id, chunk)).servers == app.servers
  {
    assert app.sup.logs[id] + [chunk] + [chunk] == app.sup.logs[id] + [chunk, chunk];
  }

  /** Error output: the `ERROR: ` line lands in the log twice, and the
      server it came from is marked as errored. */
  lemma StderrLoggedTwice(app: App, id: string, text: string)
    requires id in app.sup.logs
    ensures var r := Notify(app, Supervisor.Stderr(id, text));
      && r.sup.logs[id] == app.sup.logs[id] + ["ERROR: " + text, "ERROR: " + text]
      && (id in Ids(app.servers) ==> Find(r.servers, id).value.status == Error)
  {
    var line := "ERROR: " + text;
    assert app.sup.logs[id] + [line] + [line] == app.sup.logs[id] + [line, line];
    var r := Notify(app, Supervisor.Stderr(id, text));
    if id in Ids(app.servers) {
      var a1 := EmitTo(app, Supervisor.ErrorOccurred(id, text));
      var a2 := EmitTo(a1, Supervisor.StatusChanged(id, Error));
      var i := FindIndex(app.servers, id).value;
      assert FindIndex(a1.servers, id) == Some(i);
      assert FindIndex(a2.servers, id) == Some(i);
      assert r.servers == a2.servers;
    }
  }

  // ---------------------------------------------------------------------
  // Buttons

  /** `_on_start_clicked`: the selected server is started only when it
      shows offline. */
  function StartClicked(app: App, host: Supervisor.Host, outcome: Supervisor.SpawnOutcome): (r: App)
    ensures (!HasTarget(app.selected) || !ControlsFor(app.servers, app.selected).start) ==> r == app
    ensures HasTarget(app.selected) && ControlsFor(app.servers, app.selected).start ==>
              r == AfterStep(app, Supervisor.StartCmd(Find(app.servers, app.selected.value).value, host, outcome))
  {
    if !HasTarget(app.selected) then app
    else
      match Find(app.servers, app.selected.value)
      case None => app
      case Some(server) =>
        if server.status == Offline then AfterStep(app, Supervisor.StartCmd(server, host, outcome)) else app
  }

  /** Delivering two runs of signals is delivering one after the other. */
  lemma {:induction false} DeliverAppend(app: App, a: seq<Supervisor.Event>, b: seq<Supervisor.Event>)
    ensures Deliver(app, a + b) == Deliver(Deliver(app, a), b)
    decreases |a|
  {
    if |a| == 0 {
      assert a + b == b;
    } else {
      assert (a + b)[0] == a[0];
      assert (a + b)[1..] == a[1..] + b;
      DeliverAppend(React(app, a[0]), a[1..], b);
    }
  }

  /** The slots for status and log signals about one id leave the
      supervisor alone, and the list ends up showing the last status among
      them, if there is one. */
  lemma {:induction false} DeliverQuiet(app: App, events: seq<Supervisor.Event>, id: string)
    requires SupervisorFacts.QuietFor(events, id)
    ensures Deliver(app, events).sup == app.sup
    ensures Deliver(app, events).selected == app.selected
    ensures var last := SupervisorFacts.LastStatus(events, id);
      Deliver(app, events).servers == if last.Some? then SetStatus(app.servers, id, last.value) else app.servers
    decreases |events|
  {
    if |events| > 0 {
      var e := events[0];
      var rest := events[1..];
      assert forall k :: 0 <= k < |rest| ==> rest[k] == events[k + 1];
      DeliverQuiet(React(app, e), rest, id);
      assert events == [e] + rest;
      SupervisorFacts.LastStatusAppend([e], rest, id);
      assert [e][..0] == [];
      var last := SupervisorFacts.LastStatus(rest, id);
      if e.StatusChanged? && last.Some? {
        SetStatusTwice(app.servers, id, e.status, last.value);
      }
    }
  }

  /** A failed start, with the window connected: after the startup
      narrative (and "Server stopped" when the launch failed during the
      wait) the error line lands in the log twice, the server is marked as
      errored, and nothing is tracked. */
  lemma FailedStartLoggedTwice(app: App, host: Supervisor.Host, outcome: Supervisor.SpawnOutcome)
    requires HasTarget(app.selected) && ControlsFor(app.servers, app.selected).start
    requires app.selected.value !in app.sup.processes && !outcome.Confirmed?
    ensures var c := Find(app.servers, app.selected.value).value;
      var line := "ERROR: " + Supervisor.FailureMessage(outcome);
      var r := StartClicked(app, host, outcome);
      && c.id in r.sup.logs
      && r.sup.logs[c.id] == Supervisor.Narrative(c, host)
                             + (if outcome.FailedToStart? then [Supervisor.StoppedLine] else []) + [line, line]
      && Find(r.servers, c.id).value.status == Error
      && r.sup.processes == app.sup.processes
  {
    var c := Find(app.servers, app.selected.value).value;
    AfterFailedStart(app, c, host, outcome);
    var r := StartClicked(app, host, outcome);
    assert r == AfterStep(app, Supervisor.StartCmd(c, host, outcome));
    FindIndexSameIds(app.servers, r.servers, c.id);
  }

  /** A failed start for a given configuration, slots included: the
      statuses signalled end with the error, which the list shows, and the
      error slot's copy of the error line follows the supervisor's. */
  lemma AfterFailedStart(app: App, c: ServerConfig, host: Supervisor.Host, outcome: Supervisor.SpawnOutcome)
    requires c.id !in app.sup.processes && !outcome.Confirmed?
    ensures var r := AfterStep(app, Supervisor.StartCmd(c, host, outcome));
      var line := "ERROR: " + Supervisor.FailureMessage(outcome);
      && c.id in r.sup.logs
      && r.sup.logs[c.id] == Supervisor.Narrative(c, host)
                             + (if outcome.FailedToStart? then [Supervisor.StoppedLine] else []) + [line, line]
      && r.servers == SetStatus(app.servers, c.id, Error)
      && r.sup.processes == app.sup.processes
  {
    var msg := Supervisor.FailureMessage(outcome);
    var line := "ERROR: " + msg;
    var waitLines := if outcome.FailedToStart? then [Supervisor.StoppedLine] else [];
    var next := Supervisor.Apply(app.sup, Supervisor.StartCmd(c, host, outcome));
    var q := FailureNotices(c.id, outcome.FailedToStart?);
    var err := Supervisor.ErrorOccurred(c.id, msg);
    FailedStartEmits(app.sup, c, host, outcome);
    var a0 := app.(sup := next);
    var a1 := Deliver(a0, q);
    QuietFailure(a0, c.id, outcome.FailedToStart?);
    var r := React(a1, err);
    assert AfterStep(app, Supervisor.StartCmd(c, host, outcome)) == r by {
      DeliverAppend(a0, q, [err]);
      assert [err][1..] == [];
    }
    assert r.servers == SetStatus(app.servers, c.id, Error) by {
      if outcome.FailedToStart? {
        SetStatusTwice(app.servers, c.id, Offline, Error);
      }
    }
    assert Supervisor.Narrative(c, host) + waitLines + [line] + [line] == Supervisor.Narrative(c, host) + waitLines + [line, line];
  }

  /** The signals of a failed start before the error: log announcements,
      with "offline" among them when the launch failed during the wait. */
  function FailureNotices(id: string, failedInWait: bool): seq<Supervisor.Event>
  {
    [Supervisor.LogsUpdated(id)]
    + (if failedInWait then [Supervisor.StatusChanged(id, Offline), Supervisor.LogsUpdated(id)] else [])
    + [Supervisor.LogsUpdated(id)]
  }

  /** What a failed start leaves for the slots: its notices, then the
      error, with the error line last in the log. */
  lemma FailedStartEmits(s: Supervisor.Supervisor, c: ServerConfig, host: Supervisor.Host, outcome: Supervisor.SpawnOutcome)
    requires c.id !in s.processes && !outcome.Confirmed?
    ensures var next := Supervisor.Apply(s, Supervisor.StartCmd(c, host, outcome));
      && next == Supervisor.StartFailed(s, c, host, outcome)
      && next.trace[|s.trace|..] == FailureNotices(c.id, outcome.FailedToStart?) + [Supervisor.ErrorOccurred(c.id, Supervisor.FailureMessage(outcome))]
      && c.id in next.logs
      && next.logs[c.id] == Supervisor.Narrative(c, host) + (if outcome.FailedToStart? then [Supervisor.StoppedLine] else [])
                            + ["ERROR: " + Supervisor.FailureMessage(outcome)]
  {
    var next := Supervisor.Apply(s, Supervisor.StartCmd(c, host, outcome));
    var u := FailureNotices(c.id, outcome.FailedToStart?) + [Supervisor.ErrorOccurred(c.id, Supervisor.FailureMessage(outcome))];
    assert next.trace == s.trace + u;
  }

  /** The slots for a failed start's notices leave the supervisor alone and
      the list showing "offline" if that was signalled. */
  lemma QuietFailure(a0: App, id: string, failedInWait: bool)
    ensures var a1 := Deliver(a0, FailureNotices(id, failedInWait));
      && a1.sup == a0.sup
      && a1.servers == (if failedInWait then SetStatus(a0.servers, id, Offline) else a0.servers)
  {
    var q := FailureNotices(id, failedInWait);
    var lu := Supervisor.LogsUpdated(id);
    var off := Supervisor.StatusChanged(id, Offline);
    assert SupervisorFacts.LastStatus([lu], id) == None by {
      assert [lu][..0] == [];
    }
    assert SupervisorFacts.LastStatus([lu, lu], id) == None by {
      assert [lu, lu][..1] == [lu];
    }
    if failedInWait {
      assert SupervisorFacts.LastStatus([lu, off], id) == Some(Offline);
      assert SupervisorFacts.LastStatus([lu, off, lu], id) == Some(Offline) by {
        assert [lu, off, lu][..2] == [lu, off];
      }
      assert q == [lu, off, lu, lu];
      assert SupervisorFacts.LastStatus(q, id) == Some(Offline) by {
        assert q[..3] == [lu, off, lu];
      }
    } else {
      assert q == [lu, lu];
    }
    DeliverQuiet(a0, q, id);
  }

  /** The slots' part of a confirmed start: the statuses signalled are
      "online" and then "starting", so the list ends on "starting", and
      the slots leave the supervisor as the start left it. */
  lemma AfterConfirmedStart(app: App, c: ServerConfig, host: Supervisor.Host)
    requires c.id !in app.sup.processes
    ensures var r := AfterStep(app, Supervisor.StartCmd(c, host, Supervisor.Confirmed));
      && r.sup == Supervisor.StartConfirmed(app.sup, c, host)
      && r.servers == SetStatus(app.servers, c.id, Status.Starting)
  {
    var next := Supervisor.Apply(app.sup, Supervisor.StartCmd(c, host, Supervisor.Confirmed));
    assert next == Supervisor.StartConfirmed(app.sup, c, host);
    var u := [Supervisor.LogsUpdated(c.id), Supervisor.StatusChanged(c.id, Online), Supervisor.LogsUpdated(c.id),
              Supervisor.LogsUpdated(c.id), Supervisor.StatusChanged(c.id, Status.Starting)];
    assert next.trace[|app.sup.trace|..] == u by {
      assert next.trace == app.sup.trace + u;
    }
    QuietConfirmation(app.(sup := next), c.id);
  }

  /** The signals of a confirmed start end with "starting". */
  lemma QuietConfirmation(a0: App, id: string)
    ensures var u := [Supervisor.LogsUpdated(id), Supervisor.StatusChanged(id, Online), Supervisor.LogsUpdated(id),
                      Supervisor.LogsUpdated(id), Supervisor.StatusChanged(id, Status.Starting)];
      var a1 := Deliver(a0, u);
      a1.sup == a0.sup && a1.servers == SetStatus(a0.servers, id, Status.Starting)
  {
    var u := [Supervisor.LogsUpdated(id), Supervisor.StatusChanged(id, Online), Supervisor.LogsUpdated(id),
              Supervisor.LogsUpdated(id), Supervisor.StatusChanged(id, Status.Starting)];
    assert SupervisorFacts.LastStatus(u, id) == Some(Status.Starting);
    DeliverQuiet(a0, u, id);
  }

  /** A confirmed start, with the window connected: the list shows the
      server starting while a poll already says online; the next status
      check brings the list in line with the poll. */
  lemma ConfirmedStartShowsStarting(app: App, host: Supervisor.Host)
    requires UniqueIds(app.servers)
    requires HasTarget(app.selected) && ControlsFor(app.servers, app.selected).start
    requires app.selected.value !in app.sup.processes
    ensures var id := app.selected.value;
      var r := StartClicked(app, host, Supervisor.Confirmed);
      && Find(r.servers, id).value.status == Status.Starting
      && Supervisor.GetStatus(r.sup, id) == Online
      && Find(CheckStatuses(r).servers, id).value.status == Online
  {
    var c := Find(app.servers, app.selected.value).value;
    var id := c.id;
    AfterConfirmedStart(app, c, host);
    var r := StartClicked(app, host, Supervisor.Confirmed);
    assert r.servers == SetStatus(app.servers, id, Status.Starting);
    FindIndexSameIds(app.servers, r.servers, id);
    SameIdsUnique(app.servers, r.servers);
    CheckStatusesPolls(r);
    FindIndexSameIds(r.servers, CheckStatuses(r).servers, id);
  }

  /** The slots' part of a stop: the supervisor is left as the stop left
      it, and the list shows "offline" exactly when the process exited
      within the wait. */
  lemma AfterStop(app: App, id: string, outcome: Supervisor.StopOutcome)
    ensures var r := AfterStep(app, Supervisor.StopCmd(id, outcome));
      && r.sup == Supervisor.Stop(app.sup, id, outcome).sup
      && r.servers == (if Supervisor.ExitsInStop(app.sup, id, outcome) then SetStatus(app.servers, id, Offline) else app.servers)
  {
    SupervisorFacts.StopSignals(app.sup, id, outcome);
    var next := Supervisor.Apply(app.sup, Supervisor.StopCmd(id, outcome));
    DeliverQuiet(app.(sup := next), next.trace[|app.sup.trace|..], id);
  }

  /** `_on_stop_clicked`: when the selected server shows anything but
      offline, `stop_server` is called for it (its answer is not used), and
      the slots handle what the stop emits: the list shows the server
      offline when its process exited within the wait, and is left alone
      when the process outlived it. */
  function StopClicked(app: App, outcome: Supervisor.StopOutcome): (r: App)
    ensures !(HasTarget(app.selected) && ControlsFor(app.servers, app.selected).stop) ==> r == app
    ensures HasTarget(app.selected) && ControlsFor(app.servers, app.selected).stop ==> (
              var id := app.selected.value;
              && r.sup == Supervisor.Stop(app.sup, id, outcome).sup
              && r.servers == (if Supervisor.ExitsInStop(app.sup, id, outcome) then SetStatus(app.servers, id, Offline) else app.servers)
              && r.selected == app.selected)
  {
    if !HasTarget(app.selected) then app
    else
      match Find(app.servers, app.selected.value)
      case None => app
      case Some(server) =>
        if server.status != Offline then
          AfterStop(app, server.id, outcome);
          AfterStep(app, Supervisor.StopCmd(server.id, outcome))
        else app
  }

  /** A stop the running process obeys within the wait, with the window
      connected: the process is no longer tracked, and the list and a poll
      both say offline. A stop the process outlives changes nothing. */
  lemma StopClickedOutcomes(app: App, code: int)
    requires Consistent(app)
    requires HasTarget(app.selected) && ControlsFor(app.servers, app.selected).stop
    requires app.selected.value in app.sup.processes && app.sup.processes[app.selected.value].state == Supervisor.Running
    ensures var id := app.selected.value;
      var r := StopClicked(app, Supervisor.ExitedInWait(code));
      && id !in r.sup.processes
      && Find(r.servers, id).value.status == Offline
      && Supervisor.GetStatus(r.sup, id) == Offline
    ensures StopClicked(app, Supervisor.OutlivedWait) == app
  {
    var id := app.selected.value;
    SupervisorFacts.StopExitUntracks(app.sup, id, code);
    var r := StopClicked(app, Supervisor.ExitedInWait(code));
    FindIndexSameIds(app.servers, r.servers, id);
  }

  /** The selection `_populate_server_list` leaves: the first row, if any. */
  function FirstRow(servers: seq<ServerConfig>): (sel: Option<string>)
    ensures sel.Some? <==> |servers| > 0
    ensures sel.Some? ==> sel.value in Ids(servers)
  {
    if |servers| > 0 then Some(servers[0].id) else None
  }

  /** `_on_delete_clicked`: once confirmed, the selected server is stopped,
      with the slots handling what the stop emits, then removed from the
      list, and the first remaining row is selected. Without a selection, a
      known server or a confirmation nothing changes. A process that exits
      within the stop's wait is untracked by the stop; one that outlives it
      stays tracked until it reports that it finished. */
  function DeleteClicked(app: App, confirmed: bool, outcome: Supervisor.StopOutcome): (r: App)
    ensures !(HasTarget(app.selected) && app.selected.value in Ids(app.servers) && confirmed) ==> r == app
    ensures HasTarget(app.selected) && app.selected.value in Ids(app.servers) && confirmed ==> (
              && r.servers == RemoveId(app.servers, app.selected.value)
              && app.selected.value !in Ids(r.servers)
              && r.selected == FirstRow(r.servers)
              && r.sup == Supervisor.Stop(app.sup, app.selected.value, outcome).sup)
  {
    if !HasTarget(app.selected) then app
    else
      match Find(app.servers, app.selected.value)
      case None => app
      case Some(server) =>
        if !confirmed then app
        else
          var stopped := AfterStep(app, Supervisor.StopCmd(server.id, outcome));
          AfterStop(app, server.id, outcome);
          RemoveIdAfterSetStatus(app.servers, server.id, Offline);
          var rest := RemoveId(stopped.servers, server.id);
          App(rest, FirstRow(rest), stopped.sup)
  }

  /** How a save from the editor panel ended. */
  datatype SaveOutcome = Ignored | MustStop | DuplicateId | Saved

  datatype SaveResult = SaveResult(app: App, outcome: SaveOutcome)

  /** The log migration on a rename: the old id's log moves to the new id. */
  function MoveLog(logs: map<string, seq<string>>, oldId: string, newId: string): (r: map<string, seq<string>>)
    requires oldId in logs
    ensures newId in r && r[newId] == logs[oldId]
    ensures oldId != newId ==> oldId !in r
    ensures forall k :: k != oldId && k != newId ==> (k in r <==> k in logs) && (k in r ==> r[k] == logs[k])
  {
    (logs - {oldId})[newId := logs[oldId]]
  }

  /** `_on_config_saved`: the edited configuration replaces the selected
      server in place, keeping its status, when the server shows offline
      and the new id, if it changed, is not taken; on a rename the log
      follows the new id, and the saved server stays selected. */
  function SaveEdit(app: App, updated: ServerConfig): (r: SaveResult)
    ensures r.outcome != Saved ==> r.app == app
    ensures r.outcome == Ignored <==> !HasTarget(app.selected) || app.selected.value !in Ids(app.servers)
    ensures r.outcome == MustStop <==> HasTarget(app.selected) && ControlsFor(app.servers, app.selected).stop
    ensures r.outcome == DuplicateId <==>
              && HasTarget(app.selected) && ControlsFor(app.servers, app.selected).start
              && updated.id != app.selected.value && updated.id in Ids(app.servers)
    ensures r.outcome == Saved ==> (
              var prev := Find(app.servers, app.selected.value).value;
              && r.app.servers == Replace(app.servers, prev.id, updated.(status := prev.status))
              && r.app.selected == Some(updated.id)
              && r.app.sup.processes == app.sup.processes && r.app.sup.configs == app.sup.configs
              && r.app.sup.trace == app.sup.trace
              && (updated.id != prev.id && prev.id in app.sup.logs ==> r.app.sup.logs == MoveLog(app.sup.logs, prev.id, updated.id))
              && (updated.id == prev.id || prev.id !in app.sup.logs ==> r.app.sup.logs == app.sup.logs))
  {
    if !HasTarget(app.selected) then SaveResult(app, Ignored)
    else
      match Find(app.servers, app.selected.value)
      case None => SaveResult(app, Ignored)
      case Some(server) =>
        if server.status != Offline then SaveResult(app, MustStop)
        else if updated.id != server.id && updated.id in Ids(app.servers) then SaveResult(app, DuplicateId)
        else
          var kept := updated.(status := server.status);
          var servers := Replace(app.servers, server.id, kept);
          var logs := if updated.id != server.id && server.id in app.sup.logs
                      then MoveLog(app.sup.logs, server.id, updated.id) else app.sup.logs;
          assert updated.id in Ids(servers) by {
            assert servers[FindIndex(app.servers, server.id).value] == kept;
          }
          SaveResult(App(servers, Some(updated.id), app.sup.(logs := logs)), Saved)
  }

  /** A save keeps ids unique and the configuration saved is in the list. */
  lemma SaveKeepsIdsUnique(app: App, updated: ServerConfig)
    requires UniqueIds(app.servers)
    ensures UniqueIds(SaveEdit(app, updated).app.servers)
  {
    var r := SaveEdit(app, updated);
    if r.outcome == Saved {
      var prev := Find(app.servers, app.selected.value).value;
      var i := FindIndex(app.servers, prev.id).value;
      var s := r.app.servers;
      forall a, b | 0 <= a < b < |s| ensures s[a].id != s[b].id {
        if a == i {
          assert s[b] == app.servers[b];
          assert Ids(app.servers)[b] == app.servers[b].id;
        } else if b == i {
          assert s[a] == app.servers[a];
          assert Ids(app.servers)[a] == app.servers[a].id;
        } else {
          assert s[a] == app.servers[a] && s[b] == app.servers[b];
        }
      }
    }
  }

  /** `_add_new_server`: an accepted dialog (its form passes validation)
      adds the new server unless its id is taken, and selects it. */
  function AddClicked(app: App, form: Editor.Form): (r: App)
    ensures Editor.Submit(form).Failure? ==> r == app
    ensures Editor.Submit(form).Success? ==> (
              var c := Editor.Submit(form).value;
              && r.servers == Add(app.servers, c).servers
              && (c.id !in Ids(app.servers) ==> r.selected == Some(c.id))
              && (c.id in Ids(app.servers) ==> r == app))
    ensures r.sup == app.sup
  {
    match Editor.Submit(form)
    case Failure(_) => app
    case Success(c) =>
      var added := Add(app.servers, c);
      if added.ok then app.(servers := added.servers, selected := Some(c.id)) else app
  }

  /** `_clone_server` as intended (the copy made with `ServerList.Clone`):
      the clone is appended under the id `CloneId` picks and selected. */
  function CloneClicked(app: App): (r: App)
    ensures !HasTarget(app.selected) || app.selected.value !in Ids(app.servers) ==> r == app
    ensures HasTarget(app.selected) && app.selected.value in Ids(app.servers) ==> (
              && r.servers == Clone(app.servers, app.selected).servers
              && r.selected == Some(r.servers[|app.servers|].id)
              && r.selected == Some(CloneId(app.servers, app.selected.value)))
    ensures r.sup == app.sup
  {
    if !HasTarget(app.selected) then app
    else
      var cloned := Clone(app.servers, app.selected);
      if cloned.ok then app.(servers := cloned.servers, selected := Some(cloned.servers[|app.servers|].id)) else app
  }

  /** `_clone_server` as written: with a known server selected the copy
      raises `AttributeError` (`ServerList.CloneAsWritten`) before anything
      changes. The `Failure` stands for that exception; it escapes the slot,
      and since the application installs no exception hook, PyQt's default
      handling then ends the program. Otherwise the handler returns without
      doing anything. */
  function CloneClickedAsWritten(app: App): (r: Result<App, string>)
    ensures r.Failure? <==> HasTarget(app.selected) && app.selected.value in Ids(app.servers)
    ensures r.Success? ==> r.value == app
  {
    match CloneAsWritten(app.servers, app.selected)
    case Failure(e) => Failure(e)
    case Success(_) => Success(app)
  }

  /** The window's `_on_clear_logs` handler for the selected server. No
      widget's signal is connected to it (the log viewer's own clear button
      empties only its view), so no action of the window reaches it. */
  function ClearLogsClicked(app: App): (r: App)
    ensures !HasTarget(app.selected) ==> r == app
    ensures HasTarget(app.selected) ==> r.sup == Supervisor.ClearLogs(app.sup, app.selected.value)
    ensures r.servers == app.servers && r.selected == app.selected
  {
    if !HasTarget(app.selected) then app else app.(sup := Supervisor.ClearLogs(app.sup, app.selected.value))
  }

  // ---------------------------------------------------------------------
  // Status polling

  /** The poll loop of `_check_statuses` over the given ids, in order. */
  function Poll(servers: seq<ServerConfig>, ids: seq<string>, sup: Supervisor.Supervisor): (r: seq<ServerConfig>)
    ensures Ids(r) == Ids(servers)
    decreases |ids|
  {
    if |ids| == 0 then servers
    else Poll(SetStatus(servers, ids[0], Supervisor.GetStatus(sup, ids[0])), ids[1..], sup)
  }

  /** `_check_statuses`: every server's status is set to what the
      supervisor reports for its id. */
  function CheckStatuses(app: App): (r: App)
    ensures Ids(r.servers) == Ids(app.servers) && r.selected == app.selected && r.sup == app.sup
  {
    app.(servers := Poll(app.servers, Ids(app.servers), app.sup))
  }

  /** Two lists with the same ids are both unique or both not. */
  lemma SameIdsUnique(a: seq<ServerConfig>, b: seq<ServerConfig>)
    requires Ids(a) == Ids(b) && UniqueIds(a)
    ensures UniqueIds(b)
  {
    forall i, j | 0 <= i < j < |b| ensures b[i].id != b[j].id {
      assert Ids(a)[i] == Ids(b)[i] && Ids(a)[j] == Ids(b)[j];
    }
  }

  lemma {:induction false} PollEffect(servers: seq<ServerConfig>, ids: seq<string>, sup: Supervisor.Supervisor)
    requires UniqueIds(servers)
    ensures var r := Poll(servers, ids, sup);
      forall k :: 0 <= k < |servers| ==>
        r[k] == (if servers[k].id in ids then servers[k].(status := Supervisor.GetStatus(sup, servers[k].id)) else servers[k])
    decreases |ids|
  {
    if |ids| > 0 {
      var st := Supervisor.GetStatus(sup, ids[0]);
      var next := SetStatus(servers, ids[0], st);
      SameIdsUnique(servers, next);
      PollEffect(next, ids[1..], sup);
      var r := Poll(servers, ids, sup);
      forall k | 0 <= k < |servers|
        ensures r[k] == (if servers[k].id in ids then servers[k].(status := Supervisor.GetStatus(sup, servers[k].id)) else servers[k])
      {
        assert next[k].id == servers[k].id by {
          assert Ids(next)[k] == Ids(servers)[k];
        }
        if servers[k].id == ids[0] {
          assert Some(k) == FindIndex(servers, ids[0]) by {
            assert Ids(servers)[k] == ids[0];
          }
        } else {
          assert Some(k) != FindIndex(servers, ids[0]);
        }
      }
    }
  }

  /** With unique ids, after a status check every server shows what a poll
      of the supervisor reports for it, and nothing else changed. */
  lemma CheckStatusesPolls(app: App)
    requires UniqueIds(app.servers)
    ensures var r := CheckStatuses(app).servers;
      && |r| == |app.servers|
      && forall k :: 0 <= k < |r| ==> r[k] == app.servers[k].(status := Supervisor.GetStatus(app.sup, app.servers[k].id))
  {
    PollEffect(app.servers, Ids(app.servers), app.sup);
    forall k | 0 <= k < |app.servers| ensures app.servers[k].id in Ids(app.servers) {
      assert Ids(app.servers)[k] == app.servers[k].id;
    }
  }

  // ---------------------------------------------------------------------
  // Everything the user and the processes can do

  datatype Action =
    | SelectRow(row: nat)
    | StartClick(host: Supervisor.Host, outcome: Supervisor.SpawnOutcome)
    | StopClick(stopOutcome: Supervisor.StopOutcome)
    | DeleteClick(confirmed: bool, stopOutcome: Supervisor.StopOutcome)
    | SaveClick(form: Editor.Form)
    | AddClick(form: Editor.Form)
    | CloneClick
    | StatusTimer
    | Report(n: Supervisor.Notification)

  /** `_on_save` feeds the panel's configuration to `_on_config_saved` once
      it passes validation. */
  function SaveFromPanel(app: App, form: Editor.Form): App
  {
    match Editor.Submit(form)
    case Failure(_) => app
    case Success(c) => SaveEdit(app, c).app
  }

  function Act(app: App, a: Action): App
  {
    match a
    case SelectRow(row) => if row < |app.servers| then app.(selected := Some(app.servers[row].id)) else app
    case StartClick(host, outcome) => StartClicked(app, host, outcome)
    case StopClick(outcome) => StopClicked(app, outcome)
    case DeleteClick(confirmed, outcome) => DeleteClicked(app, confirmed, outcome)
    case SaveClick(form) => SaveFromPanel(app, form)
    case AddClick(form) => AddClicked(app, form)
    case CloneClick => CloneClicked(app)
    case StatusTimer => CheckStatuses(app)
    case Report(n) => Notify(app, n)
  }

  /** Every action keeps the window consistent. */
  lemma ActKeepsConsistent(app: App, a: Action)
    requires Consistent(app)
    ensures Consistent(Act(app, a))
  {
    match a
    case SelectRow(_) =>
    case StartClick(host, outcome) =>
      StartKeepsConsistent(app, host, outcome);
    case StopClick(outcome) =>
      StopKeepsConsistent(app, outcome);
    case DeleteClick(confirmed, outcome) =>
      DeleteKeepsConsistent(app, confirmed, outcome);
    case SaveClick(form) =>
      if Editor.Submit(form).Success? {
        SaveKeepsIdsUnique(app, Editor.Submit(form).value);
      }
    case AddClick(form) =>
      if Editor.Submit(form).Success? {
        AddKeepsIdsUnique(app.servers, Editor.Submit(form).value);
      }
    case CloneClick =>
      CloneKeepsIdsUnique(app.servers, app.selected);
    case StatusTimer =>
      SameIdsUnique(app.servers, CheckStatuses(app).servers);
    case Report(n) =>
      NotifyKeepsConsistent(app, n);
  }

  lemma StartKeepsConsistent(app: App, host: Supervisor.Host, outcome: Supervisor.SpawnOutcome)
    requires Consistent(app)
    ensures Consistent(StartClicked(app, host, outcome))
  {
    if HasTarget(app.selected) && ControlsFor(app.servers, app.selected).start {
      var c := Find(app.servers, app.selected.value).value;
      StepKeepsConsistent(app, Supervisor.StartCmd(c, host, outcome));
    }
  }

  lemma StopKeepsConsistent(app: App, outcome: Supervisor.StopOutcome)
    requires Consistent(app)
    ensures Consistent(StopClicked(app, outcome))
  {
    if HasTarget(app.selected) && ControlsFor(app.servers, app.selected).stop {
      var id := app.selected.value;
      SupervisorFacts.ApplyKeepsKeysAgree(app.sup, Supervisor.StopCmd(id, outcome));
      SameIdsUnique(app.servers, StopClicked(app, outcome).servers);
    }
  }

  lemma DeleteKeepsConsistent(app: App, confirmed: bool, outcome: Supervisor.StopOutcome)
    requires Consistent(app)
    ensures Consistent(DeleteClicked(app, confirmed, outcome))
  {
    if HasTarget(app.selected) && app.selected.value in Ids(app.servers) && confirmed {
      RemoveKeepsIdsUnique(app.servers, app.selected.value);
      SupervisorFacts.ApplyKeepsKeysAgree(app.sup, Supervisor.StopCmd(app.selected.value, outcome));
    }
  }

  /** A supervisor operation with its slots keeps the window consistent. */
  lemma StepKeepsConsistent(app: App, cmd: Supervisor.Command)
    requires Consistent(app)
    ensures Consistent(AfterStep(app, cmd))
  {
    SupervisorFacts.ApplyKeepsKeysAgree(app.sup, cmd);
    SameIdsUnique(app.servers, AfterStep(app, cmd).servers);
  }

  /** A process report with the window connected keeps it consistent. */
  lemma NotifyKeepsConsistent(app: App, n: Supervisor.Notification)
    requires Consistent(app)
    ensures Consistent(Notify(app, n))
  {
    SupervisorFacts.ApplyKeepsKeysAgree(app.sup, Supervisor.Notify(n));
    SameIdsUnique(app.servers, Notify(app, n).servers);
  }

  function RunActions(app: App, actions: seq<Action>): App
    decreases |actions|
  {
    if |actions| == 0 then app else RunActions(Act(app, actions[0]), actions[1..])
  }

  /** The window starts with an empty supervisor and the servers loaded
      from the configuration file. The loader does not check that their ids
      are unique; the invariant holds from any list whose ids are, and a
      file that repeats an id is outside this lemma. Clone clicks use the
      copy as intended (`CloneClicked`); as written, a clone of a listed
      server raises and by default ends the program, so no run continues
      past it. */
  lemma {:induction false} RunKeepsConsistent(servers: seq<ServerConfig>, actions: seq<Action>)
    requires UniqueIds(servers)
    ensures Consistent(RunActions(App(servers, FirstRow(servers), Supervisor.Init()), actions))
  {
    RunFromConsistent(App(servers, FirstRow(servers), Supervisor.Init()), actions);
  }

  lemma {:induction false} RunFromConsistent(app: App, actions: seq<Action>)
    requires Consistent(app)
    ensures Consistent(RunActions(app, actions))
    decreases |actions|
  {
    if |actions| > 0 {
      ActKeepsConsistent(app, actions[0]);
      RunFromConsistent(Act(app, actions[0]), actions[1..]);
    }
  }
}

=== FILE: wrappers.dfy ===
/** The optional-value and success-or-failure types used throughout the
    model for Python's `None` results and raised exceptions. */
module Wrappers {

  datatype Option<+T> = None | Some(value: T)

  datatype Result<+T, +E> = Success(value: T) | Failure(error: E)
}
